=== FILE: README.md ===
# Scholarship application review, modelled in Dafny

This project models the application-review workflow of a scholarship web site. Candidates fill in a six-step form and submit an application. An administrator logs in behind a role gate and lists, filters and counts applications. The administrator can change an application's status and notes, export the filtered list as CSV, and grant or revoke user roles. Candidates see their own applications with a status message. The backend is modelled as a pure store of three tables: `applications`, `profiles` and `user_roles`. Every backend call is a function of that store plus a boolean that says whether the call fails.

Modules, one per file:

- `Wrappers` (`wrappers.dfy`): `Option`, `Result` and `Choice`. `Choice` is a select whose value is `"all"` or one member.
- `Toasts`: success and error notifications.
- `Text`: the JavaScript string operations the screens use. These are `toLowerCase` (ASCII letters), `includes`, the ordering of `sort` (taken as code-point order), `join`, `split` and `parseInt`.
- `Seqs`: order-preserving `filter`, counting, and the newest-first order of `order("created_at", { ascending: false })`.
- `Schema`: the generated database types. These are the four enums, their wire names and `Constants` arrays, and the `Row`/`Insert` shapes.
- `Store`: the backend tables and the server-side behaviour the screens rely on. This covers the unique `(user_id, role)` pair (error `23505`), `maybeSingle`, column defaults, and the typing of an insert body (`23502`, `22P02`).
- `AccessGate`: the admin login and its role test.
- `Dashboard`: the admin dashboard's list, filters, statistics, province options, status updates and entry check.
- `CsvExport`: the CSV export and a reader for the produced text.
- `UserAdmin`: the user-and-role management screen.
- `SubmissionForm`: the candidate's multi-step form and its submission.
- `DetailModal`: the application detail dialog where an administrator saves a status and notes.
- `CandidateProfile`: the candidate's profile page, with the list of their own applications.

Some operations are plain definitions whose meaning is stated by the lemmas about them rather than by a contract of their own:

- `Store.NewRow` builds the row an insert creates. `Store.NewRowOfFullInsert` shows that the defaults only fill the keys left out. `SubmissionForm.SubmittedRowContents` shows which defaults a submission receives: status `nova`, null notes and the default owner.
- `SubmissionForm.BuildPayload` builds the insert body of src/pages/CandidaturaForm.tsx:41-46. The lemmas about what it sends are `SubmissionForm.DecimalAnswersAreStored` (numerals arrive as the numbers they spell), `SubmissionForm.EmptyHeadCountIsRefused`, `SubmissionForm.ZeroHeadCountIsStored` and `SubmissionForm.SubmittedRowContents`.
- `DetailModal.Mount` seeds the dialog's buffers when it mounts (src/components/admin/ApplicationDetailModal.tsx:62-64). `DetailModal.AsWrittenSaveResetsReview` gives the consequence of mounting with no application, and `DetailModal.Show` with `DetailModal.SaveWithoutEditsKeepsReview` gives the consequence of mounting with one.

Where the written design and the code disagree, the model follows the code:

- The dashboard's entry check only redirects a non-admin to `/admin`; it does not sign them out (`Dashboard.CheckAuth`, `Dashboard.NonAdminKeepsSessionOnDashboard`). The login screen does sign out.
- The form never checks that the household size is at least 1: the page sends a `"0"` answer as 0 without checking it (`SubmissionForm.ZeroHeadCountIsStored`). Whether the database itself would refuse it is not modelled (see `Store.TypeInsert` under "Left out").
- The form's insert payload does not carry `user_id`. The owner of a submitted application is whatever the column default gives, a parameter of the model (`Store.ColumnDefaults.owner`).

## Model

| member | source | states |
|---|---|---|
| Schema.RoleFromText | src/integrations/supabase/types.ts:157 | reading an `app_role` wire name gives the member whose name it is, and any text naming no member is refused |
| Schema.StatusFromText | src/integrations/supabase/types.ts:158 | reading an `application_status` wire name inverts the naming, and unknown text is refused |
| Schema.EducationFromText | src/integrations/supabase/types.ts:159-164 | reading an `education_level` wire name inverts the naming, and unknown text is refused |
| Schema.ScholarshipFromText | src/integrations/supabase/types.ts:165-169 | reading a `scholarship_type` wire name inverts the naming, and unknown text is refused |
| Schema.ConstantsMatchEnums | src/integrations/supabase/types.ts:294-314 | each runtime `Constants` array lists exactly the wire names of its enum, in declaration order, and every member appears |
| Schema.ConstantsDistinct | src/integrations/supabase/types.ts:294-314 | no `Constants` array repeats a wire name |
| Store.OnlyUniqueViolationIs23505 | src/components/admin/UserManagement.tsx:106-110 | the error code `23505` is reported for a unique violation and for nothing else |
| Store.SelectRolesOf | src/integrations/supabase/types.ts:148-154 | a user's role query returns a role exactly when `has_role(role, user)` holds |
| Store.InsertRole | src/integrations/supabase/types.ts:122-142 | inserting a role row fails with a unique violation exactly when the user already holds the role; otherwise the user holds it afterwards, every other grant is unchanged, the other tables are unchanged and pairs stay unique |
| Store.UniquePairCount | src/integrations/supabase/types.ts:122-142 | when `(user_id, role)` pairs are unique, a pair occurs once if the user holds the role and not at all otherwise |
| Store.DeleteRole | src/components/admin/UserManagement.tsx:122-126 | deleting by `user_id` and `role` revokes exactly that grant: other grants and tables are unchanged, the rows that remain keep their order, and uniqueness is kept |
| Store.SelectProfiles | src/components/admin/UserManagement.tsx:59-62 | the profile listing holds every profile row once and is ordered newest first |
| Store.ProfileById | src/pages/candidato/Perfil.tsx:75-79 | `maybeSingle` on the id gives the one row with that id when exactly one row has it, gives no row exactly when none has it, and fails, with the multiple-rows error, exactly when two or more rows have it |
| Store.UpdateProfileName | src/pages/candidato/Perfil.tsx:109-112 | the update rewrites `full_name` of the rows with that id and leaves every other row and table unchanged |
| Store.SelectApplications | src/pages/admin/AdminDashboard.tsx:58 | the application listing holds every row once and is ordered newest first |
| Store.SelectApplicationsOf | src/pages/candidato/Perfil.tsx:89-93 | the owner-scoped listing holds exactly the rows owned by that user, as many as the table has, newest first |
| Store.UpdateApplications | src/pages/admin/AdminDashboard.tsx:64 | an update by id patches the rows with that id, changes nothing else in the table, never changes ownership, and leaves the other tables alone |
| Store.TypeInsert | src/integrations/supabase/types.ts:44-69 | an insert body is accepted exactly when both enum fields name members and the head count is a number; the typed values are the ones sent, and the server-assigned keys are absent |
| Store.NewRowOfFullInsert | src/integrations/supabase/types.ts:44-69 | the column defaults only fill the keys an insert leaves out: an insert that sets every column creates exactly the row it describes, whatever the defaults are |
| Store.InsertApplication | src/pages/CandidaturaForm.tsx:42-47 | an insert either fails because the body does not type, or appends exactly the defaulted row and leaves the other tables unchanged |
| AccessGate.GateIsHasRole | src/pages/admin/AdminLogin.tsx:23-24 | when the role query goes through, the admin test is exactly `has_role('admin', uid)`; a failed query never grants |
| AccessGate.HandleLogin | src/pages/admin/AdminLogin.tsx:15-35 | the login navigates to `/admin/dashboard`, keeps the session and shows the success toast "Login efectuado com sucesso!" exactly when sign-in succeeds and the user is an admin; every other signed-in user is signed out with the error toast "Acesso não autorizado"; an auth error shows its message as an error toast, or the fallback when the message is empty; loading always ends |
| AccessGate.RevokedAdminIsSignedOut | src/pages/admin/AdminLogin.tsx:23-27 | after an admin grant is deleted, that user's next login is refused and signed out |
| AccessGate.OtherRolesAreRefused | src/pages/admin/AdminLogin.tsx:24-27 | a user holding only `moderator` or `candidato` never reaches the dashboard |
| Dashboard.Visible | src/pages/admin/AdminDashboard.tsx:100-109 | the visible list is a subsequence of the loaded list, holds exactly the applications that pass all four filters, and has as many entries as match |
| Dashboard.VisibleIsIntersection | src/pages/admin/AdminDashboard.tsx:100-109 | applying the status, scholarship, province and search filters one after another gives the visible list |
| Dashboard.VisibleIsTheOnlyMatchingSubsequence | src/pages/admin/AdminDashboard.tsx:100-109 | any order-preserving selection of matching applications that is as long as the match count is the visible list |
| Dashboard.DefaultsShowEverything | src/pages/admin/AdminDashboard.tsx:100-104 | with every filter on "all" and an empty search, every loaded application is shown, in order |
| Dashboard.SearchMeansOccurrence | src/pages/admin/AdminDashboard.tsx:104-107 | a non-empty search matches exactly when the lower-cased query occurs in the lower-cased name or email, or the raw query occurs in the phone |
| Dashboard.SearchIgnoresCaseOfNameAndEmail | src/pages/admin/AdminDashboard.tsx:105-106 | two queries that differ only in letter case match the same applications when neither occurs in the phone |
| Dashboard.StatusCountsPartition | src/pages/admin/AdminDashboard.tsx:111-117 | the four status counts add up to the number of applications |
| Dashboard.ComputeStats | src/pages/admin/AdminDashboard.tsx:111-117 | `total` is the number of applications, each status card counts the applications with that status, and the cards add up to `total` |
| Dashboard.StatusCardMatchesItsFilter | src/pages/admin/AdminDashboard.tsx:101-116 | filtering by one status alone shows as many applications as that status card counts |
| Dashboard.InsertOption | src/pages/admin/AdminDashboard.tsx:119 | adding a province to the option list keeps it strictly ascending and adds exactly that province |
| Dashboard.ProvinceOptions | src/pages/admin/AdminDashboard.tsx:119 | the province options are strictly ascending and list exactly the non-empty provinces that occur |
| Dashboard.AscendingHasNoDuplicates | src/pages/admin/AdminDashboard.tsx:119 | a strictly ascending option list repeats no province |
| Dashboard.AscendingListIsDeterminedByItsEntries | src/pages/admin/AdminDashboard.tsx:119 | two strictly ascending lists with the same entries are equal, so the option list is the sorted distinct provinces |
| Dashboard.Fetch | src/pages/admin/AdminDashboard.tsx:56-61 | a successful fetch replaces the list with every stored application, newest first; a failed fetch keeps the old list; loading ends and nothing else changes |
| Dashboard.UpdateStatus | src/pages/admin/AdminDashboard.tsx:63-69 | a failed update changes nothing; a successful one sets the status of the rows with that id and nothing else, and the refetched list mirrors the store with the new status |
| Dashboard.EveryStatusIsOffered | src/pages/admin/AdminDashboard.tsx:271-274 | every status is one of the row's select options |
| Dashboard.CheckAuth | src/pages/admin/AdminDashboard.tsx:44-54 | the dashboard stays open exactly when there is a session, the role query succeeds and the user is an admin; otherwise it redirects to `/admin`; the roles are queried only with a session; the session is never touched |
| Dashboard.NonAdminKeepsSessionOnDashboard | src/pages/admin/AdminDashboard.tsx:50-53 | a signed-in non-admin is redirected by the dashboard but keeps the session, while the login screen signs them out |
| CsvExport.Escape | src/pages/admin/AdminDashboard.tsx:91 | escaping leaves a cell without quotes unchanged and never shortens a cell |
| CsvExport.ParseField | src/pages/admin/AdminDashboard.tsx:91 | reading one quoted field consumes input |
| CsvExport.ParseFieldEscape | src/pages/admin/AdminDashboard.tsx:91 | a field written with doubled quotes reads back as the original cell, leaving the rest of the input |
| CsvExport.ParseRecordLine | src/pages/admin/AdminDashboard.tsx:91 | a written record reads back as its cells |
| CsvExport.ParseRecordLines | src/pages/admin/AdminDashboard.tsx:91 | newline-joined records read back as the rows |
| CsvExport.DocumentRoundTrip | src/pages/admin/AdminDashboard.tsx:77-91 | reading back an exported document gives the exported rows |
| CsvExport.DocumentInjective | src/pages/admin/AdminDashboard.tsx:77-91 | different row lists never export to the same text |
| CsvExport.AsWrittenAgreesWithoutQuotes | src/pages/admin/AdminDashboard.tsx:91 | when no cell contains a quote, the export as written and the corrected export are the same text |
| CsvExport.AsWrittenExportIsAmbiguous | src/pages/admin/AdminDashboard.tsx:91 | as written, a one-cell row `a","b` and a two-cell row `a`,`b` export to the same text |
| CsvExport.AsWrittenQuotedCellIsUnreadable | src/pages/admin/AdminDashboard.tsx:91 | as written, a cell with a quote in it produces a record a CSV reader rejects |
| CsvExport.ExportRowsAreRecords | src/pages/admin/AdminDashboard.tsx:78-89 | every exported row has cells |
| CsvExport.Export | src/pages/admin/AdminDashboard.tsx:76-98 | the downloaded text is the page's document, with cells quoted but inner quotes not doubled, of one row per visible application in the order shown, each with one cell per header (name first, status ninth); when no cell holds a double quote it reads back as exactly those rows; the file is named after the date, and the MIME type and success toast are the fixed ones |
| CsvExport.ExportCorrected | src/pages/admin/AdminDashboard.tsx:76-98 | with inner quotes doubled, the downloaded text reads back as exactly the visible rows whatever the cells hold, and it is the page's own download whenever no cell holds a double quote |
| CsvExport.FileNameIsDatePart | src/pages/admin/AdminDashboard.tsx:95 | the file name is `candidaturas_` plus the date part of the ISO timestamp plus `.csv` |
| Store.RolesIn | src/components/admin/UserManagement.tsx:79-81 | a user's roles are the roles of the rows carrying its id, one entry per such row and in table order; a role is listed exactly when some row of that user grants it |
| UserAdmin.Combine | src/components/admin/UserManagement.tsx:74-82 | there is one user per profile, in the profiles' order, with that profile's fields, and its roles are the roles of the rows carrying its id in table order (`Store.RolesIn`), so it holds exactly the roles those rows grant |
| UserAdmin.LoadedUsers | src/components/admin/UserManagement.tsx:55-84 | the loaded users are the profiles combined with the role rows after a rearrangement of the profiles (a permutation), newest first; so there is one user per profile, and each holds exactly the roles `has_role` grants |
| UserAdmin.FetchUsers | src/components/admin/UserManagement.tsx:55-91 | a failure of either query keeps the old users and adds the load-error toast; success replaces them with the loaded users; loading ends and nothing else changes |
| UserAdmin.FilteredUsers | src/components/admin/UserManagement.tsx:140-147 | the listed users are a subsequence of the loaded users, holding exactly those that pass the search and role filters |
| UserAdmin.EmptySearchMatchesIdentifiedUsers | src/components/admin/UserManagement.tsx:141-143 | the empty search matches a user exactly when they have an email or a name |
| UserAdmin.AnonymousUsersAreNeverListed | src/components/admin/UserManagement.tsx:141-143 | a user with neither email nor name is never listed, whatever the search |
| UserAdmin.RoleFilterFollowsDatabase | src/components/admin/UserManagement.tsx:144-145 | after a fresh load, filtering by a role lists a profile only if `has_role` grants it that role |
| UserAdmin.AddRole | src/components/admin/UserManagement.tsx:93-116 | without a selected user and role nothing happens; otherwise the grant is inserted, an existing grant gives the "already has this role" toast with the store unchanged, a failure gives the generic toast, and the dialog closes and clears in every outcome; a successful grant reloads the list from the new store, or, when that reload fails, keeps the old list and adds the load-error toast |
| UserAdmin.RemoveRole | src/components/admin/UserManagement.tsx:118-138 | without a selected user and role nothing happens; otherwise exactly that grant is revoked, or on failure the store is unchanged with the error toast, and the dialog closes and clears; a successful delete reloads the list from the new store, or, when that reload fails, keeps the old list and adds the load-error toast |
| UserAdmin.GrantingTwiceKeepsOneRow | src/components/admin/UserManagement.tsx:97-107 | granting the same role twice leaves the store as after the first grant, reports the duplicate, and leaves exactly one row for the pair |
| UserAdmin.RevokingAbsentRoleChangesNothing | src/components/admin/UserManagement.tsx:122-129 | revoking a role the user does not hold changes no grant |
| SubmissionForm.FormExtensional | src/pages/CandidaturaForm.tsx:21-28 | a form's contents are its seventeen text fields and the declaration flag |
| SubmissionForm.SetText | src/pages/CandidaturaForm.tsx:30-32 | updating a field sets that field and keeps every other field and the declaration |
| SubmissionForm.SetDeclaration | src/pages/CandidaturaForm.tsx:30-32 | updating the declaration sets it and keeps every text field |
| SubmissionForm.SetTextLaws | src/pages/CandidaturaForm.tsx:30-32 | a second update of a field overrides the first, and writing back a field's own value changes nothing |
| SubmissionForm.Back | src/pages/CandidaturaForm.tsx:174 | "back" moves one step down and stops at the first step, changing nothing else |
| SubmissionForm.Next | src/pages/CandidaturaForm.tsx:178 | "next" moves one step up and stops at the declaration step, changing nothing else |
| SubmissionForm.NextReachesDeclaration | src/pages/CandidaturaForm.tsx:174-182 | pressing "next" enough times reaches the declaration step with the answers unchanged |
| SubmissionForm.BackUndoesNext | src/pages/CandidaturaForm.tsx:174-178 | below the last step, "back" undoes "next" |
| SubmissionForm.HandleSubmit | src/pages/CandidaturaForm.tsx:34-55 | without the declaration nothing is sent and the declaration toast is shown; an accepted insert appends the row, shows success and navigates to `/candidaturas`; a refused or failed insert leaves the store unchanged with the error toast; the answers and step are kept |
| SubmissionForm.SubmittedRowContents | src/pages/CandidaturaForm.tsx:41-46 | the stored row has status `nova`, no notes, the column-default owner and the typed answers |
| SubmissionForm.EmptyHeadCountIsRefused | src/pages/CandidaturaForm.tsx:45 | an empty head count becomes `NaN` and is refused as a not-null violation |
| SubmissionForm.UnsetSelectIsRefused | src/pages/CandidaturaForm.tsx:41-43 | an unset education or scholarship select is refused as invalid enum text |
| SubmissionForm.ZeroHeadCountIsStored | src/pages/CandidaturaForm.tsx:45 | the page sends a head count that parses to 0 as 0 without checking it, and the typed insert keeps it as 0 |
| SubmissionForm.DecimalAnswersAreStored | src/pages/CandidaturaForm.tsx:44-45 | decimal year and head-count answers are stored as the numbers they spell |
| SubmissionForm.FirstSubmissionExample | src/pages/CandidaturaForm.tsx:34-55 | an illustration, not a general property: one concrete filled-in form, submitted to an empty store, is stored as the row `SubmittedRowContents` and `DecimalAnswersAreStored` predict |
| DetailModal.ShowAsWritten | src/pages/admin/AdminDashboard.tsx:308-313 | as written, showing another application keeps the buffers from the first mount |
| DetailModal.Show | src/components/admin/ApplicationDetailModal.tsx:62-63 | corrected: showing an application seeds the buffers from that application |
| DetailModal.EveryStatusIsOffered | src/components/admin/ApplicationDetailModal.tsx:180-183 | every status is one of the dialog's options |
| DetailModal.Save | src/components/admin/ApplicationDetailModal.tsx:68-85 | a failed save leaves the store unchanged with the error toast; a successful one writes the buffers to the rows with that id and nothing else, shows success, then refreshes and closes |
| DetailModal.Cancel | src/components/admin/ApplicationDetailModal.tsx:200 | cancel only closes the dialog |
| DetailModal.SaveWithoutEditsKeepsReview | src/components/admin/ApplicationDetailModal.tsx:62-85 | corrected: saving without edits keeps the stored status and notes |
| DetailModal.AsWrittenSaveResetsReview | src/pages/admin/AdminDashboard.tsx:308-313 | as written, saving without edits resets the status to `nova` and the notes to empty |
| DetailModal.AsWrittenApprovedBecomesNew | src/components/admin/ApplicationDetailModal.tsx:62-63 | as written, an approved application with notes becomes new with no notes after an unedited save |
| DetailModal.AsWrittenBuffersCarryOver | src/components/admin/ApplicationDetailModal.tsx:62-63 | as written, edits made for one application are still in the buffers when the next one is shown |
| CandidateProfile.Load | src/pages/candidato/Perfil.tsx:65-102 | without a session the page redirects to `/auth/candidato` and issues no query; otherwise every query is scoped to the user, the profile query comes first, the applications shown are the user's own, newest first, and a failure shows one toast with no applications; loading ends |
| CandidateProfile.OthersApplicationsNeverShown | src/pages/candidato/Perfil.tsx:89-93 | an application the user does not own is never shown |
| CandidateProfile.NoteBlocks | src/pages/candidato/Perfil.tsx:384 | the notes block appears exactly when the notes are non-empty, with those notes |
| CandidateProfile.ExactlyOneStatusMessage | src/pages/candidato/Perfil.tsx:328-384 | each card shows exactly one status message, its own status's, followed by the notes block if any |
| CandidateProfile.StatusMessageInjective | src/pages/candidato/Perfil.tsx:328-382 | different statuses show different messages |
| CandidateProfile.StatusLabelInjective | src/pages/candidato/Perfil.tsx:31-35 | the badge texts of `statusConfig` tell the statuses apart: two statuses share a badge only when they are the same |
| CandidateProfile.MessageTitleInjective | src/pages/candidato/Perfil.tsx:328-377 | the headings of the four status blocks ("Candidatura Aprovada!", "Candidatura Rejeitada", "Em Análise", "Candidatura Registada") tell the statuses apart |
| CandidateProfile.ScholarshipLabelOf | src/pages/candidato/Perfil.tsx:277 | a known scholarship type shows its label, and an unknown text is shown as is |
| CandidateProfile.EducationLabelOf | src/pages/candidato/Perfil.tsx:282 | a known education level shows its label, and an unknown text is shown as is |
| CandidateProfile.LabelsAreDistinct | src/pages/candidato/Perfil.tsx:38-51 | the labels are non-empty and different members have different labels |
| CandidateProfile.SaveProfile | src/pages/candidato/Perfil.tsx:104-122 | without a profile nothing happens; a failed update keeps the store with the error toast; a successful one renames the profile in the store and on the page with the success toast |
| CandidateProfile.SavedNameIsReloaded | src/pages/candidato/Perfil.tsx:83-116 | after a successful save, reloading the page shows the saved name |
| CandidateProfile.ProfileByIdAfterRename | src/pages/candidato/Perfil.tsx:75-112 | after a rename, `maybeSingle` on the id finds the renamed profile |
| Text.Lower | src/pages/admin/AdminDashboard.tsx:105-106 | lower-casing keeps the length, maps each character on its own, and leaves no upper-case ASCII letter |
| Text.LowerIdempotent | src/components/admin/UserManagement.tsx:142-143 | lower-casing twice is lower-casing once |
| Text.ContainsIffOccurs | src/pages/admin/AdminDashboard.tsx:105-107 | `includes` holds exactly when the needle occurs at some position of the text |
| Text.LexLessTotal | src/pages/admin/AdminDashboard.tsx:119 | the `sort` order relates any two different strings one way or the other |
| Text.LexLessTransitive | src/pages/admin/AdminDashboard.tsx:119 | the `sort` order is transitive |
| Text.SplitJoin | src/pages/admin/AdminDashboard.tsx:95 | splitting a join on a separator no part contains gives back the parts |
| Text.ParseIntDecimalText | src/pages/CandidaturaForm.tsx:44-45 | `parseInt` of the decimal numeral of a number is that number |
| Text.ParseIntEmpty | src/pages/CandidaturaForm.tsx:45 | `parseInt` of the empty string is `NaN` |
| Seqs.Filter | src/pages/admin/AdminDashboard.tsx:100 | `filter` keeps exactly the elements that pass, in their order, as many as pass |
| Seqs.FilterUnique | src/pages/admin/AdminDashboard.tsx:100 | an order-preserving selection of passing elements, as long as the number that pass, is the filter |
| Seqs.FilterFilter | src/pages/admin/AdminDashboard.tsx:100-108 | filtering by one test and then by another is filtering by both |
| Seqs.SortNewestFirst | src/pages/admin/AdminDashboard.tsx:58 | ordering by `created_at` descending gives a newest-first permutation of the rows |

## Left out

- Network, rendering, routing and browser APIs are not modelled. Each backend call is a pure function of the store, plus a boolean saying whether it fails. A navigation is a recorded path, and a notification is a recorded toast.
- Authentication internals (passwords, tokens, session storage) are not modelled. A session is an optional user id, and `signInWithPassword` is a parameter that gives either a user id or an error message.
- Seqs.SortNewestFirst: `created_at` is compared as text, which agrees with the server's order by instant only because every timestamp comes back in UTC in one layout. Rows with equal `created_at` keep their table order, where the server leaves the order of ties unspecified.
- Row-level security policies, triggers (`updated_at`) and server-generated ids and timestamps are not modelled. Ids and times are parameters (`Store.ColumnDefaults`).
- Concurrency is not modelled. On the dashboard, `checkAuth` and `fetchApplications` start together, and `addRole`/`removeRole` start `fetchUsers` without awaiting it. The model runs these steps one after the other.
- Intermediate spinner states (`isSubmitting`, `isSaving`, `loading` while a request is in flight) are not modelled. Only the state after a call completes is.
- Dashboard.UpdateStatus: the "Estado actualizado" toast of a successful status change is not recorded. Only the store and the refetched list are modelled.
- CsvExport.Cells: the date column uses the browser's `toLocaleDateString("pt-AO")`, which is a parameter of the model. The `Blob`, object URL and link click become a `Download` value.
- CsvExport.Document: records are separated by a line feed, as the page writes them. Section 2, rule 2 of RFC 4180 asks for CRLF. Only the quoting of rule 7 is corrected, and the reader accepts line feeds.
- SubmissionForm.HandleSubmit: can be called at any step. The page offers the submit button only on the declaration step (src/pages/CandidaturaForm.tsx:177-186), and the model does not make that a precondition.
- Concurrent edits by several administrators (last write wins) are not modelled.
- CsvExport.ParseDocument: the reader accepts only records whose every cell is quoted, which is what the export writes. It skips the unquoted header line and does not read general CSV.
- Text.Lower: only ASCII letters are lower-cased. The full Unicode case mapping of `toLowerCase` is not modelled, so a search differing only in the case of accented letters is outside the model.
- Text.ParseInt: follows `parseInt` with one argument, covering ASCII white space, a sign, the `0x` prefix and the longest digit run. Unicode white space and numbers beyond double precision are not modelled.
- Store.TypeInsert: CHECK constraints and the ranges of the integer columns (`int4`) are not modelled. The model types an insert only against the generated types, so a head count of 0, a negative one or one beyond 32 bits is accepted as it is.
- Text.LexLess: compares strings by code point. JavaScript's `sort` compares UTF-16 code units, which orders a character outside the Basic Multilingual Plane before the characters U+E000 to U+FFFF, where code-point order puts it after them.
- CandidateProfile.MessageTitle: each status block is modelled by its heading only. The explanatory sentence under the heading, its icon and its colours are not modelled.
- CandidateProfile.Load: the text of an error message (`error.message`) is a parameter of the model.
- The candidate's logout and the date formatting on the profile page are not modelled. The landing page, the authentication pages and other static pages are not modelled either.

## Findings

| source | as written | input that shows it | evidently intended | confidence | as-written member | corrected member |
|---|---|---|---|---|---|---|
| src/pages/admin/AdminDashboard.tsx:91 | each cell is wrapped in quotes without doubling the quotes inside it | a cell `a","b` exports to the same line as two cells `a` and `b`, and a cell `a"b` gives a record no CSV reader accepts | quotes inside a cell are doubled, as in section 2, rule 7 of RFC 4180, so that the export reads back as the rows | not executed | CsvExport.AsWrittenExportIsAmbiguous | CsvExport.ExportCorrected |
| src/pages/admin/AdminDashboard.tsx:308-313 | the detail dialog stays mounted from page load, when `selectedApp` is null. Its status and notes buffers are seeded only once, to `nova` and "" (ApplicationDetailModal.tsx:62-63) | open an application with status `aprovada` and notes "Documentos verificados", then press save without editing | the buffers start from the opened application, so an unedited save keeps its status and notes | not executed | DetailModal.AsWrittenSaveResetsReview | DetailModal.SaveWithoutEditsKeepsReview |

=== FILE: access_gate.dfy ===
/**
 * The admin access gate: the login handler and the role test the dashboard
 * repeats on entry. Both read the caller's role rows and look for `admin`;
 * the role query's error is ignored, so a failed query reads as "no rows".
 */
module AccessGate {
  import opened Wrappers
  import opened Schema
  import opened Store
  import opened Toasts

  /** The roles a role query returned, or `None` when the query failed. */
  function RoleQuery(db: Db, uid: UserId, queryFails: bool): Option<seq<AppRole>>
  {
    if queryFails then None else Some(SelectRolesOf(db, uid))
  }

  /** `roles?.some(r => r.role === "admin")`. */
  predicate GrantsAdmin(roles: Option<seq<AppRole>>)
  {
    roles.Some? && Admin in roles.value
  }

  /** When the query goes through, the gate's test is exactly `has_role('admin', uid)`. */
  lemma GateIsHasRole(db: Db, uid: UserId, queryFails: bool)
    ensures GrantsAdmin(RoleQuery(db, uid, queryFails)) <==> !queryFails && HasRole(db, Admin, uid)
  {
  }

  // ---------------------------------------------------------------- AdminLogin

  const DashboardPath: string := "/admin/dashboard"
  const NotAuthorised: string := "Acesso n\U{00E3}o autorizado"
  const LoginFailed: string := "Erro ao fazer login"
  const LoggedIn: string := "Login efectuado com sucesso!"

  /** What `signInWithPassword` answered: the user id, or the error's message. */
  datatype SignIn = SignedIn(uid: UserId) | AuthError(message: string)

  /** The observable end state of one `handleLogin`. */
  datatype LoginResult = LoginResult(
    session: Option<UserId>,
    roleQueried: bool,
    signedOut: bool,
    navigateTo: Option<string>,
    toast: Toast,
    isLoading: bool)

  /**
   * `handleLogin`: sign in; on an auth error stop there; otherwise read the
   * user's roles, and without `admin` sign out again and report "Acesso não
   * autorizado". Every outcome raises exactly one toast, and `isLoading` is
   * cleared in every outcome.
   */
  function HandleLogin(signIn: SignIn, db: Db, roleQueryFails: bool): (r: LoginResult)
    ensures !r.isLoading
    ensures signIn.AuthError? ==> !r.roleQueried && !r.signedOut && r.navigateTo.None? && r.session.None?
    ensures r.navigateTo.Some? <==> signIn.SignedIn? && !roleQueryFails && HasRole(db, Admin, signIn.uid)
    ensures r.navigateTo.Some? ==> r.navigateTo.value == DashboardPath && r.toast == Success(LoggedIn)
    ensures r.session.Some? <==> r.navigateTo.Some?
    ensures r.session.Some? ==> r.session.value == signIn.uid
    ensures r.signedOut <==> signIn.SignedIn? && r.navigateTo.None?
    ensures r.navigateTo.None? ==> r.toast.Failure? && r.toast.message != ""
    ensures signIn.AuthError? && signIn.message != "" ==> r.toast == Failure(signIn.message)
    ensures r.signedOut ==> r.toast == Failure(NotAuthorised)
  {
    match signIn
    case AuthError(message) =>
      LoginResult(None, false, false, None, Failure(if message == "" then LoginFailed else message), false)
    case SignedIn(uid) =>
      GateIsHasRole(db, uid, roleQueryFails);
      if GrantsAdmin(RoleQuery(db, uid, roleQueryFails)) then
        LoginResult(Some(uid), true, false, Some(DashboardPath), Success(LoggedIn), false)
      else
        LoginResult(None, true, true, None, Failure(NotAuthorised), false)
  }

  /**
   * Role changes take effect at the next login: once the `admin` grant of a
   * user is deleted, that user's login is refused and signed out, whatever
   * other roles they keep.
   */
  lemma RevokedAdminIsSignedOut(db: Db, uid: UserId, roleQueryFails: bool)
    ensures var r := HandleLogin(SignedIn(uid), DeleteRole(db, uid, Admin), roleQueryFails);
      r.signedOut && r.session.None? && r.navigateTo.None?
  {
  }

  /** `moderator` and `candidato` alone never open the dashboard. */
  lemma OtherRolesAreRefused(db: Db, uid: UserId, roleQueryFails: bool)
    requires forall i :: 0 <= i < |db.userRoles| && db.userRoles[i].userId == uid ==> db.userRoles[i].role != Admin
    ensures HandleLogin(SignedIn(uid), db, roleQueryFails).navigateTo.None?
  {
  }
}

=== FILE: candidate_profile.dfy ===
/**
 * The candidate's own page: their profile and their applications, each with
 * one status message and, when an administrator left one, the internal note. The
 * page reads only rows keyed to the signed-in user; which rows a user may
 * read at all is decided by the backend's row-level security, outside this
 * model.
 */
module CandidateProfile {
  import opened Wrappers
  import opened Seqs
  import opened Schema
  import opened Store
  import opened Toasts

  const CandidateLoginPath: string := "/auth/candidato"
  const LoadFailedPrefix: string := "Erro ao carregar dados: "
  const SaveFailedPrefix: string := "Erro ao guardar: "
  const ProfileSaved: string := "Perfil atualizado com sucesso!"

  /** A backend read the page issued, with the user id it was keyed to. */
  datatype Query = ProfileQuery(uid: UserId) | ApplicationsQuery(uid: UserId)

  datatype Page = Page(
    isLoading: bool,
    isSaving: bool,
    profile: Option<Profile>,
    applications: seq<Application>,
    fullName: string,
    redirectTo: Option<string>,
    toasts: seq<Toast>,
    queries: seq<Query>)

  const InitialPage: Page := Page(true, false, None, [], "", None, [], [])

  /** `full_name || ""`. */
  function NameText(name: Option<string>): string
  {
    if name.Some? then name.value else ""
  }

  // ---------------------------------------------------------------- loading

  /**
   * `checkAuthAndLoadData`. Without a session the page sends the visitor to
   * the candidate login and reads nothing; its spinner is never cleared,
   * since the page is being left. With one, the profile is read by id (none,
   * or a read error that stops everything), then the user's applications
   * newest first; any error raises a toast built from the backend's message
   * and leaves the list empty, and the spinner always ends.
   */
  function Load(session: Option<UserId>, db: Db, profileFails: bool, appsFails: bool, message: DbError -> string): (r: Page)
    ensures session.None? ==> r == InitialPage.(redirectTo := Some(CandidateLoginPath))
    ensures session.Some? ==> !r.isLoading && r.redirectTo.None?
    ensures session.Some? ==> forall i :: 0 <= i < |r.queries| ==> r.queries[i].uid == session.value
    ensures session.Some? ==> 1 <= |r.queries| <= 2 && r.queries[0] == ProfileQuery(session.value)
    ensures r.profile.Some? ==>
      session.Some? && r.profile.value in db.profiles && r.profile.value.id == session.value
      && r.fullName == NameText(r.profile.value.fullName)
    ensures forall i :: 0 <= i < |r.applications| ==> r.applications[i] in db.applications && r.applications[i].userId == session
    ensures NewestFirst(r.applications, AppCreatedAt)
    ensures session.Some? && |r.toasts| == 0 ==>
      forall i :: 0 <= i < |db.applications| && db.applications[i].userId == session ==> db.applications[i] in r.applications
    ensures session.Some? && |r.toasts| > 0 ==> r.applications == [] && |r.toasts| == 1
  {
    match session
    case None => InitialPage.(redirectTo := Some(CandidateLoginPath))
    case Some(uid) =>
      var read := if profileFails then Err(Unavailable) else ProfileById(db, uid);
      match read
      case Err(e) =>
        InitialPage.(isLoading := false, toasts := [Failure(LoadFailedPrefix + message(e))], queries := [ProfileQuery(uid)])
      case Ok(found) =>
        var withProfile := if found.Some? then InitialPage.(profile := found, fullName := NameText(found.value.fullName)) else InitialPage;
        var queries := [ProfileQuery(uid), ApplicationsQuery(uid)];
        if appsFails then
          withProfile.(isLoading := false, toasts := [Failure(LoadFailedPrefix + message(Unavailable))], queries := queries)
        else
          withProfile.(isLoading := false, applications := SelectApplicationsOf(db, uid), queries := queries)
  }

  /** Another candidate's application never reaches the page. */
  lemma OthersApplicationsNeverShown(uid: UserId, db: Db, profileFails: bool, appsFails: bool, message: DbError -> string, a: Application)
    requires a.userId != Some(uid)
    ensures a !in Load(Some(uid), db, profileFails, appsFails, message).applications
  {
  }

  // ---------------------------------------------------------------- messages

  /** The status badge text of `statusConfig`. */
  function StatusLabel(s: AppStatus): string
  {
    match s
    case Nova => "Nova"
    case EmAnalise => "Em An\U{00E1}lise"
    case Aprovada => "Aprovada"
    case Rejeitada => "Rejeitada"
  }

  datatype Block = Approved | Rejected | UnderReview | Received | Notes(text: string)

  /** The message the page means for each status: one per status, none missing. */
  function StatusMessage(s: AppStatus): Block
  {
    match s
    case Aprovada => Approved
    case Rejeitada => Rejected
    case EmAnalise => UnderReview
    case Nova => Received
  }

  /** The heading of a block. */
  function MessageTitle(b: Block): string
  {
    match b
    case Approved => "Candidatura Aprovada!"
    case Rejected => "Candidatura Rejeitada"
    case UnderReview => "Em An\U{00E1}lise"
    case Received => "Candidatura Registada"
    case Notes(_) => "Notas do Administrador"
  }

  /** The four independent `app.status === …` blocks of a card, in page order. */
  function StatusBlocks(a: Application): seq<Block>
  {
    (if a.status == Aprovada then [Approved] else [])
    + (if a.status == Rejeitada then [Rejected] else [])
    + (if a.status == EmAnalise then [UnderReview] else [])
    + (if a.status == Nova then [Received] else [])
  }

  /** `app.admin_notes && …`: the note block, for a present, non-empty note. */
  function NoteBlocks(a: Application): (r: seq<Block>)
    ensures |r| <= 1
    ensures |r| == 1 <==> a.adminNotes.Some? && a.adminNotes.value != ""
    ensures |r| == 1 ==> r[0] == Notes(a.adminNotes.value)
  {
    if a.adminNotes.Some? && a.adminNotes.value != "" then [Notes(a.adminNotes.value)] else []
  }

  function CardBlocks(a: Application): seq<Block>
  {
    StatusBlocks(a) + NoteBlocks(a)
  }

  /**
   * Every card carries exactly one status message, the one its status
   * means, followed by the note when there is one.
   */
  lemma ExactlyOneStatusMessage(a: Application)
    ensures StatusBlocks(a) == [StatusMessage(a.status)]
    ensures CardBlocks(a)[0] == StatusMessage(a.status)
    ensures |CardBlocks(a)| == 1 + |NoteBlocks(a)|
  {
  }

  /** Different statuses give different messages, so the message tells the status. */
  lemma StatusMessageInjective(s: AppStatus, t: AppStatus)
    ensures StatusMessage(s) == StatusMessage(t) <==> s == t
  {
  }

  /** The badge tells the status apart: the four badge texts differ in length. */
  lemma StatusLabelInjective(s: AppStatus, t: AppStatus)
    ensures StatusLabel(s) == StatusLabel(t) <==> s == t
  {
    assert |StatusLabel(Nova)| == 4 && |StatusLabel(EmAnalise)| == 10;
    assert |StatusLabel(Aprovada)| == 8 && |StatusLabel(Rejeitada)| == 9;
  }

  /**
   * The heading tells the status apart: three headings share the
   * "Candidatura " prefix and differ at the third letter after it.
   */
  lemma MessageTitleInjective(s: AppStatus, t: AppStatus)
    ensures MessageTitle(StatusMessage(s)) == MessageTitle(StatusMessage(t)) <==> s == t
  {
    assert |MessageTitle(UnderReview)| == 10;
    assert MessageTitle(Approved)[14] == 'r' && MessageTitle(Rejected)[14] == 'j' && MessageTitle(Received)[14] == 'g';
  }

  // ---------------------------------------------------------------- labels

  function ScholarshipLabel(k: ScholarshipType): string
  {
    match k
    case EnsinoFundamental => "Ensino Fundamental"
    case FormacaoProfissional => "Forma\U{00E7}\U{00E3}o Profissional"
    case UniversitariaComparticipada => "Universit\U{00E1}ria Comparticipada"
    case Outras => "Outras Bolsas"
  }

  function EducationLabel(e: EducationLevel): string
  {
    match e
    case Primario => "Prim\U{00E1}rio"
    case Secundario => "Secund\U{00E1}rio"
    case Tecnico => "T\U{00E9}cnico"
    case Universitario => "Universit\U{00E1}rio"
    case PosGraduacao => "P\U{00F3}s-Gradua\U{00E7}\U{00E3}o"
  }

  /** `scholarshipLabels[raw] || raw`: the label of a known value, the raw text otherwise. */
  function ScholarshipLabelOf(raw: string): (r: string)
    ensures ScholarshipFromText(raw).None? ==> r == raw
    ensures forall k :: ScholarshipText(k) == raw ==> r == ScholarshipLabel(k)
  {
    match ScholarshipFromText(raw)
    case None => raw
    case Some(k) => ScholarshipLabel(k)
  }

  /** `educationLabels[raw] || raw`. */
  function EducationLabelOf(raw: string): (r: string)
    ensures EducationFromText(raw).None? ==> r == raw
    ensures forall e :: EducationText(e) == raw ==> r == EducationLabel(e)
  {
    match EducationFromText(raw)
    case None => raw
    case Some(e) => EducationLabel(e)
  }

  /** Each known value has its own label, and no label is empty. */
  lemma LabelsAreDistinct(k: ScholarshipType, k': ScholarshipType, e: EducationLevel, e': EducationLevel)
    ensures ScholarshipLabel(k) == ScholarshipLabel(k') <==> k == k'
    ensures EducationLabel(e) == EducationLabel(e') <==> e == e'
    ensures ScholarshipLabel(k) != "" && EducationLabel(e) != ""
  {
  }

  // ---------------------------------------------------------------- saving

  /** Typing in the name box. */
  function EditName(p: Page, name: string): Page
  {
    p.(fullName := name)
  }

  /**
   * `handleSaveProfile`: with no profile loaded nothing happens. Otherwise
   * one update of `full_name` on the caller's own profile row; only when it
   * succeeds does the page's copy of the profile take the new name.
   */
  function SaveProfile(p: Page, db: Db, updateFails: bool, message: DbError -> string): (r: (Page, Db))
    requires !p.isSaving
    ensures p.profile.None? ==> r == (p, db)
    ensures p.profile.Some? && updateFails ==>
      r.1 == db && r.0 == p.(toasts := p.toasts + [Failure(SaveFailedPrefix + message(Unavailable))])
    ensures p.profile.Some? && !updateFails ==>
      && r.0 == p.(profile := Some(p.profile.value.(fullName := Some(p.fullName))), toasts := p.toasts + [Success(ProfileSaved)])
      && |r.1.profiles| == |db.profiles|
      && (forall i :: 0 <= i < |db.profiles| ==>
        r.1.profiles[i] == if db.profiles[i].id == p.profile.value.id then db.profiles[i].(fullName := Some(p.fullName)) else db.profiles[i])
      && r.1.applications == db.applications && r.1.userRoles == db.userRoles
  {
    if p.profile.None? then (p, db)
    else if updateFails then (p.(toasts := p.toasts + [Failure(SaveFailedPrefix + message(Unavailable))]), db)
    else
      var db' := UpdateProfileName(db, p.profile.value.id, p.fullName);
      (p.(profile := Some(p.profile.value.(fullName := Some(p.fullName))), toasts := p.toasts + [Success(ProfileSaved)]), db')
  }

  /**
   * Loading, renaming and saving, then loading again, shows the new name:
   * the page's copy and the stored row agree.
   */
  lemma SavedNameIsReloaded(uid: UserId, db: Db, name: string, message: DbError -> string)
    requires ProfileById(db, uid).Ok? && ProfileById(db, uid).value.Some?
    ensures var loaded := Load(Some(uid), db, false, false, message);
      var saved := SaveProfile(EditName(loaded, name), db, false, message);
      var reloaded := Load(Some(uid), saved.1, false, false, message);
      && saved.0.profile.Some? && saved.0.profile.value.fullName == Some(name)
      && reloaded.profile.Some? && reloaded.profile.value.fullName == Some(name) && reloaded.fullName == name
  {
    var loaded := Load(Some(uid), db, false, false, message);
    var db' := SaveProfile(EditName(loaded, name), db, false, message).1;
    assert loaded.profile.Some?;
    ProfileByIdAfterRename(db, uid, name);
  }

  /** Renaming a profile keeps it the only one with its id. */
  lemma ProfileByIdAfterRename(db: Db, uid: UserId, name: string)
    requires ProfileById(db, uid).Ok? && ProfileById(db, uid).value.Some?
    ensures var r := ProfileById(UpdateProfileName(db, uid, name), uid);
      r.Ok? && r.value.Some? && r.value.value.fullName == Some(name)
  {
    var db' := UpdateProfileName(db, uid, name);
    assert forall i :: 0 <= i < |db'.profiles| ==> (db'.profiles[i].id == uid <==> db.profiles[i].id == uid);
    FilterCongruentIds(db.profiles, db'.profiles, uid);
  }

  lemma {:induction false} FilterCongruentIds(ps: seq<Profile>, qs: seq<Profile>, uid: UserId)
    requires |ps| == |qs|
    requires forall i :: 0 <= i < |ps| ==> (ps[i].id == uid <==> qs[i].id == uid)
    ensures Count(ps, IdTest(uid)) == Count(qs, IdTest(uid))
    decreases |ps|
  {
    if |ps| > 0 {
      FilterCongruentIds(ps[1..], qs[1..], uid);
    }
  }
}

=== FILE: csv_export.dfy ===
/**
 * The dashboard's CSV export: a header line, then one line per visible
 * application, every cell wrapped in double quotes, cells joined by commas and
 * lines by line feeds. The cell quoting is given twice: as the page writes it
 * (the cell text is put between quotes unchanged) and with the quote doubling
 * of section 2, rule 7 of RFC 4180, which the rest of the model uses. A reader
 * of quoted CSV recovers every exported row from the corrected document, and
 * cannot in general from the one the page writes.
 */
module CsvExport {
  import opened Wrappers
  import opened Text
  import opened Schema
  import Dashboard

  /** The column titles, in the order the cells are written. */
  const Headers: seq<string> := ["Nome", "Email", "Telefone", "Prov\U{00ED}ncia", "Munic\U{00ED}pio",
    "Tipo de Bolsa", "N\U{00ED}vel de Ensino", "Institui\U{00E7}\U{00E3}o", "Estado", "Data"]

  /** The header line is written as is, without quotes. */
  const HeaderLine: string := Join(Headers, ',')

  const Quote: char := '"'

  // ---------------------------------------------------------------- writing

  /** Doubles every double quote of a cell. */
  function Escape(v: string): (r: string)
    ensures Quote !in v ==> r == v
    ensures |r| >= |v|
  {
    if |v| == 0 then ""
    else (if v[0] == Quote then [Quote, Quote] else [v[0]]) + Escape(v[1..])
  }

  /** A cell as RFC 4180 quotes it. */
  function QuoteCell(v: string): string
  {
    [Quote] + Escape(v) + [Quote]
  }

  /** A cell as the page quotes it: `"${cell}"`, with the text left unchanged. */
  function QuoteCellAsWritten(v: string): string
  {
    [Quote] + v + [Quote]
  }

  function RecordLine(cells: seq<string>): string
  {
    Join(seq(|cells|, i requires 0 <= i < |cells| => QuoteCell(cells[i])), ',')
  }

  function RecordLineAsWritten(cells: seq<string>): string
  {
    Join(seq(|cells|, i requires 0 <= i < |cells| => QuoteCellAsWritten(cells[i])), ',')
  }

  function RecordLines(rows: seq<seq<string>>): seq<string>
  {
    seq(|rows|, i requires 0 <= i < |rows| => RecordLine(rows[i]))
  }

  /** The exported text, with corrected quoting. */
  function Document(rows: seq<seq<string>>): string
  {
    Join([HeaderLine] + RecordLines(rows), '\n')
  }

  /** The exported text as the page builds it. */
  function DocumentAsWritten(rows: seq<seq<string>>): string
  {
    Join([HeaderLine] + seq(|rows|, i requires 0 <= i < |rows| => RecordLineAsWritten(rows[i])), '\n')
  }

  // ---------------------------------------------------------------- reading

  /**
   * Reads the inside of a quoted field, up to and including its closing
   * quote; a doubled quote stands for one quote. Answers the field's text
   * and what follows the closing quote, or `None` when the field never ends.
   */
  function ParseField(s: string): (r: Option<(string, string)>)
    ensures r.Some? ==> |r.value.1| < |s|
    decreases |s|
  {
    if |s| == 0 then None
    else if s[0] == Quote then
      if |s| >= 2 && s[1] == Quote then
        match ParseField(s[2..])
        case None => None
        case Some(fr) => Some(([Quote] + fr.0, fr.1))
      else Some(("", s[1..]))
    else
      match ParseField(s[1..])
      case None => None
      case Some(fr) => Some(([s[0]] + fr.0, fr.1))
  }

  function Cons(row: seq<string>, rest: Option<seq<seq<string>>>): Option<seq<seq<string>>>
  {
    match rest
    case None => None
    case Some(rows) => Some([row] + rows)
  }

  /**
   * Reads records of quoted fields: a comma continues the record, a line feed
   * starts the next one, the end of the text ends the last. `cur` holds the
   * fields of the record read so far.
   */
  function ParseRows(s: string, cur: seq<string>): Option<seq<seq<string>>>
    decreases |s|
  {
    if |s| == 0 || s[0] != Quote then None
    else
      match ParseField(s[1..])
      case None => None
      case Some(fr) =>
        var (cell, rest) := fr;
        if |rest| == 0 then Some([cur + [cell]])
        else if rest[0] == ',' then ParseRows(rest[1..], cur + [cell])
        else if rest[0] == '\n' then Cons(cur + [cell], ParseRows(rest[1..], []))
        else None
  }

  /** Reads an exported document: the header line, then the records, if any. */
  function ParseDocument(doc: string): Option<seq<seq<string>>>
  {
    var n := |HeaderLine|;
    if doc == HeaderLine then Some([])
    else if |doc| > n && doc[..n + 1] == HeaderLine + "\n" then ParseRows(doc[n + 1..], [])
    else None
  }

  // ---------------------------------------------------------------- round trip

  /** The reader takes back exactly the cell text the writer escaped. */
  lemma {:induction false} ParseFieldEscape(v: string, t: string)
    requires |t| == 0 || t[0] != Quote
    ensures ParseField(Escape(v) + [Quote] + t) == Some((v, t))
    decreases |v|
  {
    if |v| == 0 {
      var s := [Quote] + t;
      assert Escape(v) + [Quote] + t == s;
      assert s[1..] == t;
    } else {
      var rest := Escape(v[1..]) + [Quote] + t;
      ParseFieldEscape(v[1..], t);
      var head := if v[0] == Quote then [Quote, Quote] else [v[0]];
      assert Escape(v) == head + Escape(v[1..]);
      assert Escape(v) + [Quote] + t == head + rest;
      if v[0] == Quote {
        ParseFieldDoubledQuote(rest, v[1..], t);
      } else {
        ParseFieldPlainChar(v[0], rest, v[1..], t);
      }
      assert [v[0]] + v[1..] == v;
    }
  }

  /** A doubled quote is read as one quote of the field. */
  lemma ParseFieldDoubledQuote(s: string, field: string, after: string)
    requires ParseField(s) == Some((field, after))
    ensures ParseField([Quote, Quote] + s) == Some(([Quote] + field, after))
  {
    var s' := [Quote, Quote] + s;
    assert s'[2..] == s;
  }

  /** Any other character is read as itself. */
  lemma ParseFieldPlainChar(c: char, s: string, field: string, after: string)
    requires c != Quote
    requires ParseField(s) == Some((field, after))
    ensures ParseField([c] + s) == Some(([c] + field, after))
  {
    var s' := [c] + s;
    assert s'[1..] == s;
  }

  /** A record line is its first quoted cell, then a comma and the rest when there is more. */
  lemma RecordLineUnfold(cells: seq<string>)
    requires |cells| >= 1
    ensures RecordLine(cells) ==
      QuoteCell(cells[0]) + (if |cells| == 1 then "" else [','] + RecordLine(cells[1..]))
  {
    var qs := seq(|cells|, i requires 0 <= i < |cells| => QuoteCell(cells[i]));
    if |cells| > 1 {
      assert qs[1..] == seq(|cells| - 1, i requires 0 <= i < |cells| - 1 => QuoteCell(cells[1..][i]));
      assert Join(qs, ',') == qs[0] + [','] + Join(qs[1..], ',');
    } else {
      assert QuoteCell(cells[0]) + "" == QuoteCell(cells[0]);
    }
  }

  /** What the reader does after one quoted cell. */
  lemma ParseRowsAfterCell(c: string, after: string, cur: seq<string>)
    requires |after| == 0 || after[0] != Quote
    ensures ParseRows(QuoteCell(c) + after, cur) ==
      if |after| == 0 then Some([cur + [c]])
      else if after[0] == ',' then ParseRows(after[1..], cur + [c])
      else if after[0] == '\n' then Cons(cur + [c], ParseRows(after[1..], []))
      else None
  {
    var s := QuoteCell(c) + after;
    assert s == [Quote] + (Escape(c) + [Quote] + after);
    assert s[1..] == Escape(c) + [Quote] + after;
    ParseFieldEscape(c, after);
    ParseRowsStep(s, cur, c, after);
  }

  /** One step of the reader: a quoted field, then what follows it. */
  lemma ParseRowsStep(s: string, cur: seq<string>, cell: string, rest: string)
    requires |s| > 0 && s[0] == Quote
    requires ParseField(s[1..]) == Some((cell, rest))
    ensures ParseRows(s, cur) ==
      if |rest| == 0 then Some([cur + [cell]])
      else if rest[0] == ',' then ParseRows(rest[1..], cur + [cell])
      else if rest[0] == '\n' then Cons(cur + [cell], ParseRows(rest[1..], []))
      else None
  {
  }

  /** One record line, followed by the end of the text or by a line feed. */
  lemma {:induction false} ParseRecordLine(cells: seq<string>, cur: seq<string>, t: string)
    requires |cells| >= 1
    requires |t| == 0 || t[0] == '\n'
    ensures ParseRows(RecordLine(cells) + t, cur) ==
      (if |t| == 0 then Some([cur + cells]) else Cons(cur + cells, ParseRows(t[1..], [])))
    decreases |cells|
  {
    var c := cells[0];
    RecordLineUnfold(cells);
    if |cells| == 1 {
      assert RecordLine(cells) + t == QuoteCell(c) + t;
      ParseRowsAfterCell(c, t, cur);
      assert cells == [c];
    } else {
      var after := [','] + (RecordLine(cells[1..]) + t);
      assert RecordLine(cells) + t == QuoteCell(c) + after;
      ParseRowsAfterCell(c, after, cur);
      assert after[1..] == RecordLine(cells[1..]) + t;
      ParseRecordLine(cells[1..], cur + [c], t);
      assert cur + [c] + cells[1..] == cur + cells;
    }
  }

  /** The records, one per line, read back as the rows written. */
  lemma {:induction false} ParseRecordLines(rows: seq<seq<string>>)
    requires |rows| >= 1
    requires forall i :: 0 <= i < |rows| ==> |rows[i]| >= 1
    ensures ParseRows(Join(RecordLines(rows), '\n'), []) == Some(rows)
    decreases |rows|
  {
    var lines := RecordLines(rows);
    if |rows| == 1 {
      ParseRecordLine(rows[0], [], "");
      assert RecordLine(rows[0]) + "" == RecordLine(rows[0]);
      assert [] + rows[0] == rows[0];
      assert rows == [rows[0]];
    } else {
      var t := "\n" + Join(RecordLines(rows[1..]), '\n');
      assert lines[1..] == RecordLines(rows[1..]);
      assert Join(lines, '\n') == RecordLine(rows[0]) + t;
      ParseRecordLine(rows[0], [], t);
      assert t[1..] == Join(RecordLines(rows[1..]), '\n');
      ParseRecordLines(rows[1..]);
      assert [] + rows[0] == rows[0];
      assert rows == [rows[0]] + rows[1..];
    }
  }

  /**
   * Every document the export writes reads back as the rows it was written
   * from, whatever the cells contain (quotes, commas and line feeds
   * included), as long as no record is empty.
   */
  lemma DocumentRoundTrip(rows: seq<seq<string>>)
    requires forall i :: 0 <= i < |rows| ==> |rows[i]| >= 1
    ensures ParseDocument(Document(rows)) == Some(rows)
  {
    var n := |HeaderLine|;
    var parts := [HeaderLine] + RecordLines(rows);
    if |rows| > 0 {
      var body := Join(RecordLines(rows), '\n');
      assert parts[1..] == RecordLines(rows);
      assert Document(rows) == HeaderLine + "\n" + body;
      assert Document(rows)[..n + 1] == HeaderLine + "\n";
      assert Document(rows)[n + 1..] == body;
      ParseRecordLines(rows);
    } else {
      assert parts == [HeaderLine];
    }
  }

  /** Two different row lists never export to the same text. */
  lemma DocumentInjective(rows: seq<seq<string>>, rows': seq<seq<string>>)
    requires forall i :: 0 <= i < |rows| ==> |rows[i]| >= 1
    requires forall i :: 0 <= i < |rows'| ==> |rows'[i]| >= 1
    requires Document(rows) == Document(rows')
    ensures rows == rows'
  {
    DocumentRoundTrip(rows);
    DocumentRoundTrip(rows');
  }

  // ---------------------------------------------------------------- the page's quoting

  /** With no double quote in any cell, the page's text is the corrected one. */
  lemma AsWrittenAgreesWithoutQuotes(rows: seq<seq<string>>)
    requires QuoteFree(rows)
    ensures DocumentAsWritten(rows) == Document(rows)
  {
    forall i | 0 <= i < |rows|
      ensures RecordLineAsWritten(rows[i]) == RecordLine(rows[i])
    {
      var cells := rows[i];
      assert seq(|cells|, k requires 0 <= k < |cells| => QuoteCellAsWritten(cells[k]))
        == seq(|cells|, k requires 0 <= k < |cells| => QuoteCell(cells[k]));
    }
    assert seq(|rows|, i requires 0 <= i < |rows| => RecordLineAsWritten(rows[i])) == RecordLines(rows);
  }

  /**
   * A quote in a cell makes the page's export ambiguous: the one-cell row
   * `a","b` and the two-cell row `a`, `b` export to the same text.
   */
  lemma AsWrittenExportIsAmbiguous()
    ensures DocumentAsWritten([["a\",\"b"]]) == DocumentAsWritten([["a", "b"]])
    ensures [["a\",\"b"]] != [["a", "b"]]
  {
    var one := ["a\",\"b"];
    var two := ["a", "b"];
    var qOne := seq(|one|, i requires 0 <= i < |one| => QuoteCellAsWritten(one[i]));
    var qTwo := seq(|two|, i requires 0 <= i < |two| => QuoteCellAsWritten(two[i]));
    assert qOne[0] == QuoteCellAsWritten(one[0]) == "\"a\",\"b\"";
    assert qTwo[0] == QuoteCellAsWritten(two[0]) == "\"a\"";
    assert qTwo[1] == QuoteCellAsWritten(two[1]) == "\"b\"";
    assert qOne == ["\"a\",\"b\""];
    assert qTwo == ["\"a\"", "\"b\""];
    assert Join(qTwo, ',') == "\"a\"" + [','] + Join(qTwo[1..], ',');
    assert RecordLineAsWritten(one) == RecordLineAsWritten(two);
    var rowsOne := [one];
    var rowsTwo := [two];
    assert seq(|rowsOne|, i requires 0 <= i < |rowsOne| => RecordLineAsWritten(rowsOne[i]))
      == seq(|rowsTwo|, i requires 0 <= i < |rowsTwo| => RecordLineAsWritten(rowsTwo[i]));
    assert |one| != |two|;
  }

  /** And a cell with a quote inside does not read back at all. */
  lemma AsWrittenQuotedCellIsUnreadable()
    ensures ParseRows(RecordLineAsWritten(["a\"b"]), []) == None
  {
    var cells := ["a\"b"];
    var q := seq(|cells|, i requires 0 <= i < |cells| => QuoteCellAsWritten(cells[i]));
    assert q[0] == QuoteCellAsWritten(cells[0]) == "\"a\"b\"";
    assert q == ["\"a\"b\""];
    var line := RecordLineAsWritten(cells);
    assert line == "\"a\"b\"";
    var inner := line[1..];
    assert inner == "a\"b\"";
    assert inner[1..] == "\"b\"";
    assert inner[1..][1..] == "b\"";
    assert ParseField(inner[1..]) == Some(("", "b\""));
    assert ParseField(inner) == Some(([inner[0]] + "", "b\""));
    assert [inner[0]] + "" == "a";
  }

  // ---------------------------------------------------------------- the dashboard's export

  /**
   * One application's cells, in header order; the submission date goes
   * through the browser's "pt-AO" date formatting, which is a parameter here.
   */
  function Cells(a: Application, formatDate: Timestamp -> string): seq<string>
  {
    [a.fullName, a.email, a.phone, a.province, a.municipality, ScholarshipText(a.scholarshipType),
     EducationText(a.educationLevel), a.institution, StatusText(a.status), formatDate(a.createdAt)]
  }

  /** The rows of the export: one per application the dashboard shows, in its order. */
  function ExportRows(v: Dashboard.View, formatDate: Timestamp -> string): seq<seq<string>>
  {
    var shown := Dashboard.Visible(v);
    seq(|shown|, i requires 0 <= i < |shown| => Cells(shown[i], formatDate))
  }

  lemma ExportRowsAreRecords(v: Dashboard.View, formatDate: Timestamp -> string)
    ensures forall i :: 0 <= i < |ExportRows(v, formatDate)| ==> |ExportRows(v, formatDate)[i]| >= 1
  {
  }

  /** `candidaturas_<date>.csv`, the date being the text before the `T` of the current ISO time. */
  function FileName(nowIso: string): string
  {
    "candidaturas_" + Split(nowIso, 'T')[0] + ".csv"
  }

  const MimeType: string := "text/csv;charset=utf-8;"
  const ExportedMessage: string := "Ficheiro exportado com sucesso"

  datatype Download = Download(fileName: string, mimeType: string, content: string, toast: string)

  /** No cell of `rows` contains a double quote. */
  predicate QuoteFree(rows: seq<seq<string>>)
  {
    forall i, j :: 0 <= i < |rows| && 0 <= j < |rows[i]| ==> Quote !in rows[i][j]
  }

  /**
   * `exportToCSV`, with the page's own quoting: the file holds the rows the
   * dashboard shows, filters applied, in the order shown, each as its ten
   * cells. It reads back to those rows when no cell holds a double quote;
   * `AsWrittenExportIsAmbiguous` shows a text for which it does not.
   */
  function Export(v: Dashboard.View, formatDate: Timestamp -> string, nowIso: string): (r: Download)
    ensures r.content == DocumentAsWritten(ExportRows(v, formatDate))
    ensures QuoteFree(ExportRows(v, formatDate)) ==> ParseDocument(r.content) == Some(ExportRows(v, formatDate))
    ensures |ExportRows(v, formatDate)| == |Dashboard.Visible(v)|
    ensures forall i :: 0 <= i < |ExportRows(v, formatDate)| ==>
      |ExportRows(v, formatDate)[i]| == |Headers|
      && ExportRows(v, formatDate)[i][0] == Dashboard.Visible(v)[i].fullName
      && ExportRows(v, formatDate)[i][8] == StatusText(Dashboard.Visible(v)[i].status)
    ensures r.fileName == FileName(nowIso) && r.mimeType == MimeType && r.toast == ExportedMessage
  {
    var rows := ExportRows(v, formatDate);
    if QuoteFree(rows) then
      ExportRowsAreRecords(v, formatDate);
      AsWrittenAgreesWithoutQuotes(rows);
      DocumentRoundTrip(rows);
      Download(FileName(nowIso), MimeType, DocumentAsWritten(rows), ExportedMessage)
    else
      Download(FileName(nowIso), MimeType, DocumentAsWritten(rows), ExportedMessage)
  }

  /**
   * The export with every embedded quote doubled, as section 2 of RFC 4180
   * asks: whatever the cells hold, the file reads back to exactly the rows
   * the dashboard shows.
   */
  function ExportCorrected(v: Dashboard.View, formatDate: Timestamp -> string, nowIso: string): (r: Download)
    ensures ParseDocument(r.content) == Some(ExportRows(v, formatDate))
    ensures QuoteFree(ExportRows(v, formatDate)) ==> r == Export(v, formatDate, nowIso)
    ensures r.fileName == FileName(nowIso) && r.mimeType == MimeType && r.toast == ExportedMessage
  {
    var rows := ExportRows(v, formatDate);
    ExportRowsAreRecords(v, formatDate);
    DocumentRoundTrip(rows);
    if QuoteFree(rows) then
      AsWrittenAgreesWithoutQuotes(rows);
      Download(FileName(nowIso), MimeType, Document(rows), ExportedMessage)
    else
      Download(FileName(nowIso), MimeType, Document(rows), ExportedMessage)
  }

  /** The file is named after the date part of the timestamp. */
  lemma FileNameIsDatePart(date: string, time: string)
    requires 'T' !in date
    ensures FileName(date + "T" + time) == "candidaturas_" + date + ".csv"
  {
    SplitAfterPlainPrefix(date, "T" + time, 'T');
    assert date + "T" + time == date + ("T" + time);
    assert Split("T" + time, 'T')[0] == "";
    assert date + "" == date;
  }
}

=== FILE: dashboard.dfy ===
/**
 * The admin dashboard's list logic: the four-way filter over the loaded
 * applications, the per-status counts behind the shortcut cards, the province
 * options, the single-row status change, the list refresh and the role test on
 * entry.
 */
module Dashboard {
  import opened Wrappers
  import opened Text
  import opened Seqs
  import opened Schema
  import opened Store
  import AccessGate

  /** The screen's state that the list logic reads and writes. */
  datatype View = View(
    applications: seq<Application>,
    statusFilter: Choice<AppStatus>,
    scholarshipFilter: Choice<ScholarshipType>,
    provinceFilter: Choice<string>,
    search: string,
    loading: bool)

  /** The page as it mounts: nothing loaded, every filter on "all", no search. */
  const Initial: View := View([], All, All, All, "", true)

  // ---------------------------------------------------------------- filter

  /**
   * The search box: an empty query matches everything; otherwise the name or
   * the e-mail must contain it ignoring case, or the phone must contain it
   * exactly as typed.
   */
  predicate MatchesSearch(a: Application, q: string)
  {
    q == ""
    || Contains(Lower(a.fullName), Lower(q))
    || Contains(Lower(a.email), Lower(q))
    || Contains(a.phone, q)
  }

  function StatusTest(c: Choice<AppStatus>): Application -> bool
  {
    (a: Application) => Admits(c, a.status)
  }

  function ScholarshipTest(c: Choice<ScholarshipType>): Application -> bool
  {
    (a: Application) => Admits(c, a.scholarshipType)
  }

  function ProvinceTest(c: Choice<string>): Application -> bool
  {
    (a: Application) => Admits(c, a.province)
  }

  function SearchTest(q: string): Application -> bool
  {
    (a: Application) => MatchesSearch(a, q)
  }

  /** The conjunction the `filtered` callback returns. */
  predicate Matches(v: View, a: Application)
  {
    && Admits(v.statusFilter, a.status)
    && Admits(v.scholarshipFilter, a.scholarshipType)
    && Admits(v.provinceFilter, a.province)
    && MatchesSearch(a, v.search)
  }

  function MatchTest(v: View): Application -> bool
  {
    (a: Application) => Matches(v, a)
  }

  /** `filtered`: the rows the table shows and the export writes. */
  function Visible(v: View): (r: seq<Application>)
    ensures IsSubseq(r, v.applications)
    ensures forall i :: 0 <= i < |r| ==> r[i] in v.applications && Matches(v, r[i])
    ensures forall i :: 0 <= i < |v.applications| && Matches(v, v.applications[i]) ==> v.applications[i] in r
    ensures |r| == Count(v.applications, MatchTest(v))
  {
    Filter(v.applications, MatchTest(v))
  }

  /**
   * The filter is the intersection of the four per-field filters, applied
   * one after another to the loaded list; the order of the rows is kept.
   */
  lemma VisibleIsIntersection(v: View)
    ensures Visible(v) ==
      Filter(Filter(Filter(Filter(v.applications, StatusTest(v.statusFilter)),
        ScholarshipTest(v.scholarshipFilter)), ProvinceTest(v.provinceFilter)), SearchTest(v.search))
  {
    var s := v.applications;
    var p1 := StatusTest(v.statusFilter);
    var p2 := ScholarshipTest(v.scholarshipFilter);
    var p3 := ProvinceTest(v.provinceFilter);
    var p4 := SearchTest(v.search);
    var p12 := (a: Application) => p1(a) && p2(a);
    var p123 := (a: Application) => p12(a) && p3(a);
    FilterFilter(s, p1, p2, p12);
    FilterFilter(s, p12, p3, p123);
    FilterFilter(s, p123, p4, MatchTest(v));
  }

  /** A subsequence of the loaded list is the filter exactly when it is as long as the matching rows. */
  lemma VisibleIsTheOnlyMatchingSubsequence(v: View, r: seq<Application>)
    requires IsSubseq(r, v.applications)
    requires forall i :: 0 <= i < |r| ==> Matches(v, r[i])
    requires |r| == Count(v.applications, MatchTest(v))
    ensures r == Visible(v)
  {
    FilterUnique(r, v.applications, MatchTest(v));
  }

  /** With every select on "all" and an empty search, every loaded row is shown. */
  lemma DefaultsShowEverything(v: View)
    requires v.statusFilter.All? && v.scholarshipFilter.All? && v.provinceFilter.All? && v.search == ""
    ensures Visible(v) == v.applications
  {
    FilterAll(v.applications, MatchTest(v));
  }

  /** The search relation in terms of occurrences of the query. */
  lemma SearchMeansOccurrence(a: Application, q: string)
    requires q != ""
    ensures MatchesSearch(a, q) <==>
      || (exists i :: OccursAt(Lower(a.fullName), Lower(q), i))
      || (exists i :: OccursAt(Lower(a.email), Lower(q), i))
      || (exists i :: OccursAt(a.phone, q, i))
  {
    assert MatchesSearch(a, q) <==>
      Contains(Lower(a.fullName), Lower(q)) || Contains(Lower(a.email), Lower(q)) || Contains(a.phone, q);
    ContainsIffOccurs(Lower(a.fullName), Lower(q));
    ContainsIffOccurs(Lower(a.email), Lower(q));
    ContainsIffOccurs(a.phone, q);
  }

  /** Name and e-mail are matched ignoring ASCII case; the phone is not. */
  lemma SearchIgnoresCaseOfNameAndEmail(a: Application, q: string, q': string)
    requires Lower(q) == Lower(q') && q != "" && q' != ""
    requires !Contains(a.phone, q) && !Contains(a.phone, q')
    ensures MatchesSearch(a, q) <==> MatchesSearch(a, q')
  {
  }

  // ---------------------------------------------------------------- stats

  datatype Stats = Stats(total: nat, nova: nat, emAnalise: nat, aprovada: nat, rejeitada: nat)

  function HasStatus(s: AppStatus): Application -> bool
  {
    (a: Application) => a.status == s
  }

  function StatOf(st: Stats, s: AppStatus): nat
  {
    match s
    case Nova => st.nova
    case EmAnalise => st.emAnalise
    case Aprovada => st.aprovada
    case Rejeitada => st.rejeitada
  }

  lemma {:induction false} StatusCountsPartition(apps: seq<Application>)
    ensures Count(apps, HasStatus(Nova)) + Count(apps, HasStatus(EmAnalise))
      + Count(apps, HasStatus(Aprovada)) + Count(apps, HasStatus(Rejeitada)) == |apps|
  {
    if |apps| > 0 {
      StatusCountsPartition(apps[1..]);
    }
  }

  /**
   * `stats`, over the whole loaded list: each card counts the rows with its
   * status, and because every row has one of the four the cards add up to
   * the total.
   */
  function ComputeStats(apps: seq<Application>): (r: Stats)
    ensures r.total == |apps|
    ensures forall s :: StatOf(r, s) == Count(apps, HasStatus(s))
    ensures r.nova + r.emAnalise + r.aprovada + r.rejeitada == r.total
  {
    StatusCountsPartition(apps);
    Stats(|apps|, Count(apps, HasStatus(Nova)), Count(apps, HasStatus(EmAnalise)),
      Count(apps, HasStatus(Aprovada)), Count(apps, HasStatus(Rejeitada)))
  }

  /**
   * Clicking a status card shows as many rows as that card counts, as long as
   * the other filters are on "all" and the search is empty; the counts
   * themselves never depend on the filters.
   */
  lemma StatusCardMatchesItsFilter(v: View, s: AppStatus)
    requires v.statusFilter == Only(s) && v.scholarshipFilter.All? && v.provinceFilter.All? && v.search == ""
    ensures |Visible(v)| == StatOf(ComputeStats(v.applications), s)
  {
    CountCongruent(v.applications, MatchTest(v), HasStatus(s));
  }

  // ---------------------------------------------------------------- provinces

  predicate StrictlyAscending(s: seq<string>)
  {
    forall i, j :: 0 <= i < j < |s| ==> LexLess(s[i], s[j])
  }

  /** Adds `p` to a strictly ascending list unless it is already there. */
  function InsertOption(p: string, s: seq<string>): (r: seq<string>)
    requires StrictlyAscending(s)
    ensures StrictlyAscending(r)
    ensures forall x :: x in r <==> x in s || x == p
    decreases |s|
  {
    if |s| == 0 then [p]
    else if p == s[0] then s
    else if LexLess(p, s[0]) then
      InsertOptionInFront(p, s);
      [p] + s
    else
      LexLessTotal(p, s[0]);
      var tail := InsertOption(p, s[1..]);
      InsertOptionBehind(s[0], s[1..], p, tail);
      [s[0]] + tail
  }

  lemma InsertOptionInFront(p: string, s: seq<string>)
    requires |s| > 0 && StrictlyAscending(s) && LexLess(p, s[0])
    ensures StrictlyAscending([p] + s)
  {
    var r := [p] + s;
    forall i, j | 0 <= i < j < |r|
      ensures LexLess(r[i], r[j])
    {
      if i == 0 {
        assert r[j] == s[j - 1];
        if j > 1 {
          LexLessTransitive(p, s[0], s[j - 1]);
        }
      } else {
        assert r[i] == s[i - 1] && r[j] == s[j - 1];
      }
    }
  }

  lemma InsertOptionBehind(head: string, s: seq<string>, p: string, tail: seq<string>)
    requires StrictlyAscending([head] + s) && StrictlyAscending(tail)
    requires LexLess(head, p)
    requires forall x :: x in tail <==> x in s || x == p
    ensures StrictlyAscending([head] + tail)
  {
    var r := [head] + tail;
    forall i, j | 0 <= i < j < |r|
      ensures LexLess(r[i], r[j])
    {
      if i == 0 {
        var y := tail[j - 1];
        assert r[j] == y && y in tail;
        if y != p {
          var k :| 0 <= k < |s| && s[k] == y;
          var hs := [head] + s;
          assert hs[0] == head && hs[k + 1] == y;
          assert LexLess(hs[0], hs[k + 1]);
        }
      } else {
        assert r[i] == tail[i - 1] && r[j] == tail[j - 1];
      }
    }
  }

  /** Some loaded row is from province `p`. */
  predicate ProvinceOccurs(apps: seq<Application>, p: string)
  {
    exists i :: 0 <= i < |apps| && apps[i].province == p
  }

  /**
   * `provinces`: the distinct non-empty provinces of the loaded rows, sorted
   * ascending. Strictly ascending means no entry is repeated.
   */
  function ProvinceOptions(apps: seq<Application>): (r: seq<string>)
    ensures StrictlyAscending(r)
    ensures forall x :: x in r <==> x != "" && ProvinceOccurs(apps, x)
    decreases |apps|
  {
    if |apps| == 0 then []
    else
      var rest := ProvinceOptions(apps[1..]);
      assert forall x :: ProvinceOccurs(apps, x) <==> apps[0].province == x || ProvinceOccurs(apps[1..], x) by {
        forall x ensures ProvinceOccurs(apps, x) <==> apps[0].province == x || ProvinceOccurs(apps[1..], x) {
          if ProvinceOccurs(apps[1..], x) {
            var i :| 0 <= i < |apps[1..]| && apps[1..][i].province == x;
            assert apps[i + 1].province == x;
          }
          if ProvinceOccurs(apps, x) && apps[0].province != x {
            var i :| 0 <= i < |apps| && apps[i].province == x;
            assert apps[1..][i - 1].province == x;
          }
        }
      }
      if apps[0].province == "" then rest else InsertOption(apps[0].province, rest)
  }

  /** A strictly ascending list has no repeated entry. */
  lemma AscendingHasNoDuplicates(s: seq<string>)
    requires StrictlyAscending(s)
    ensures forall i, j :: 0 <= i < j < |s| ==> s[i] != s[j]
  {
    forall i, j | 0 <= i < j < |s|
      ensures s[i] != s[j]
    {
      LexLessIrreflexive(s[i]);
    }
  }

  /**
   * Sorting the de-duplicated provinces has only one possible outcome: two
   * strictly ascending lists with the same entries are the same list.
   */
  lemma {:induction false} AscendingListIsDeterminedByItsEntries(a: seq<string>, b: seq<string>)
    requires StrictlyAscending(a) && StrictlyAscending(b)
    requires forall x :: x in a <==> x in b
    ensures a == b
    decreases |a|
  {
    if |a| > 0 {
      assert a[0] in b;
    }
    if |b| > 0 {
      assert b[0] in a;
    }
    if |a| > 0 && |b| > 0 {
      var k :| 0 <= k < |b| && b[k] == a[0];
      var m :| 0 <= m < |a| && a[m] == b[0];
      if k > 0 && m > 0 {
        LexLessAsymmetric(b[0], a[0]);
      }
      assert a[0] == b[0];
      forall x
        ensures x in a[1..] <==> x in b[1..]
      {
        if x in a[1..] {
          var i :| 0 <= i < |a[1..]| && a[1..][i] == x;
          assert LexLess(a[0], a[i + 1]);
          LexLessIrreflexive(x);
          assert a[i + 1] == x && x in a && x in b;
          var j :| 0 <= j < |b| && b[j] == x;
          assert b[1..][j - 1] == x;
        }
        if x in b[1..] {
          var i :| 0 <= i < |b[1..]| && b[1..][i] == x;
          assert LexLess(b[0], b[i + 1]);
          LexLessIrreflexive(x);
          assert b[i + 1] == x && x in b && x in a;
          var j :| 0 <= j < |a| && a[j] == x;
          assert a[1..][j - 1] == x;
        }
      }
      AscendingListIsDeterminedByItsEntries(a[1..], b[1..]);
      assert a == [a[0]] + a[1..] && b == [b[0]] + b[1..];
    }
  }

  // ---------------------------------------------------------------- refresh and status change

  /**
   * `fetchApplications`: the loaded list is replaced by every row, newest
   * first, only when the query succeeds; a failed fetch keeps the previous
   * list. The filters are untouched and `loading` ends false.
   */
  function Fetch(v: View, db: Db, fetchFails: bool): (r: View)
    ensures !r.loading
    ensures fetchFails ==> r.applications == v.applications
    ensures !fetchFails ==> NewestFirst(r.applications, AppCreatedAt) && multiset(r.applications) == multiset(db.applications)
    ensures r.(applications := v.applications, loading := v.loading) == v
  {
    if fetchFails then v.(loading := false)
    else v.(applications := SelectApplications(db), loading := false)
  }

  /** The options of each row's status select: all four, whatever the row's status. */
  const StatusOptions: seq<AppStatus> := [Nova, EmAnalise, Aprovada, Rejeitada]

  /**
   * `updateStatus(id, s)`: one update of the `status` column of the row with
   * that id, and a refresh only when the update succeeded. No transition is
   * refused: any status may follow any other.
   */
  function UpdateStatus(v: View, db: Db, id: string, s: AppStatus, updateFails: bool, fetchFails: bool): (r: (View, Db))
    ensures updateFails ==> r == (v, db)
    ensures !updateFails ==> |r.1.applications| == |db.applications|
    ensures !updateFails ==> forall i :: 0 <= i < |db.applications| ==>
      r.1.applications[i] == (if db.applications[i].id == id then db.applications[i].(status := s) else db.applications[i])
    ensures r.1.profiles == db.profiles && r.1.userRoles == db.userRoles
    ensures updateFails || fetchFails ==> r.0.applications == v.applications
    ensures !updateFails && !fetchFails ==> forall a :: a in r.0.applications && a.id == id ==> a.status == s
    ensures !updateFails && !fetchFails ==> multiset(r.0.applications) == multiset(r.1.applications)
  {
    if updateFails then (v, db)
    else
      var db' := UpdateApplications(db, id, Patch(Some(s), None));
      var v' := Fetch(v, db', fetchFails);
      if fetchFails then (v', db')
      else
        StatusOfUpdatedRows(db, id, s, v'.applications);
        (v', db')
  }

  /** Any listing of the rows after the update shows the new status on the rows with that id. */
  lemma StatusOfUpdatedRows(db: Db, id: string, s: AppStatus, listed: seq<Application>)
    requires multiset(listed) == multiset(UpdateApplications(db, id, Patch(Some(s), None)).applications)
    ensures forall a :: a in listed && a.id == id ==> a.status == s
  {
    var rows := UpdateApplications(db, id, Patch(Some(s), None)).applications;
    forall a | a in listed && a.id == id
      ensures a.status == s
    {
      assert a in multiset(rows);
      var i :| 0 <= i < |rows| && rows[i] == a;
    }
  }

  /** Every status is offered for every row, so every change can be made from the list. */
  lemma EveryStatusIsOffered(current: AppStatus, target: AppStatus)
    ensures target in StatusOptions
  {
    ConstantsMatchEnums();
  }

  // ---------------------------------------------------------------- entry check

  const AdminLoginPath: string := "/admin"

  /** The outcome of `checkAuth`: where to go, and the session afterwards. */
  datatype EntryCheck = EntryCheck(redirectTo: Option<string>, roleQueried: bool, session: Option<UserId>)

  /**
   * `checkAuth`: without a session, or without an `admin` row, the page sends
   * the visitor to the login screen. It never signs anyone out.
   */
  function CheckAuth(session: Option<UserId>, db: Db, roleQueryFails: bool): (r: EntryCheck)
    ensures r.redirectTo.None? <==> session.Some? && !roleQueryFails && HasRole(db, Admin, session.value)
    ensures r.redirectTo.Some? ==> r.redirectTo.value == AdminLoginPath
    ensures r.roleQueried <==> session.Some?
    ensures r.session == session
  {
    match session
    case None => EntryCheck(Some(AdminLoginPath), false, session)
    case Some(uid) =>
      AccessGate.GateIsHasRole(db, uid, roleQueryFails);
      if AccessGate.GrantsAdmin(AccessGate.RoleQuery(db, uid, roleQueryFails)) then EntryCheck(None, true, session)
      else EntryCheck(Some(AdminLoginPath), true, session)
  }

  /**
   * The dashboard and the login screen disagree on a signed-in non-admin: the
   * login signs them out, the dashboard only redirects and leaves the session.
   */
  lemma NonAdminKeepsSessionOnDashboard(db: Db, uid: UserId, roleQueryFails: bool)
    requires !HasRole(db, Admin, uid)
    ensures CheckAuth(Some(uid), db, roleQueryFails).session == Some(uid)
    ensures CheckAuth(Some(uid), db, roleQueryFails).redirectTo == Some(AdminLoginPath)
    ensures AccessGate.HandleLogin(AccessGate.SignedIn(uid), db, roleQueryFails).signedOut
  {
  }
}

=== FILE: detail_modal.dfy ===
/**
 * The dashboard's detail editor for one application: two edit buffers, the
 * status and the internal notes, written back together by one update. The
 * component keeps its buffers across prop changes, and the dashboard mounts
 * it once, with no application, when the page loads; the buffers therefore
 * never hold the application that is later opened in it. Both that behaviour
 * and the intended one (buffers taken from the application being opened) are
 * modelled.
 */
module DetailModal {
  import opened Wrappers
  import opened Schema
  import opened Store
  import opened Toasts

  /** What the editor asks its parent to do: refresh the list, close the dialog. */
  datatype Effect = OnUpdate | OnClose

  /** The editor's state: its prop and its two buffers. */
  datatype Editor = Editor(application: Option<Application>, adminNotes: string, status: AppStatus, isSaving: bool)

  const Saved: string := "Candidatura actualizada com sucesso"
  const SaveFailed: string := "Erro ao actualizar candidatura"

  /** `admin_notes || ""`: a null or empty note is the empty text. */
  function NotesText(notes: Option<string>): string
  {
    if notes.Some? then notes.value else ""
  }

  /**
   * The state at first mount: the buffers are seeded from the prop given
   * then, or from the defaults "" and `nova` when there is none.
   */
  function Mount(app: Option<Application>): Editor
  {
    match app
    case None => Editor(None, "", Nova, false)
    case Some(a) => Editor(app, NotesText(a.adminNotes), a.status, false)
  }

  /** A later render with a new prop, as written: the buffers stay as they were. */
  function ShowAsWritten(e: Editor, app: Option<Application>): (r: Editor)
    ensures r.application == app
    ensures r.adminNotes == e.adminNotes && r.status == e.status && r.isSaving == e.isSaving
  {
    e.(application := app)
  }

  /** Opening an application as intended: the editor starts over from it, as a remount would. */
  function Show(app: Application): (r: Editor)
    ensures r.application == Some(app)
    ensures r.status == app.status && r.adminNotes == NotesText(app.adminNotes) && !r.isSaving
  {
    Mount(Some(app))
  }

  /** `if (!application) return null`: the editor shows exactly when it has an application. */
  predicate Renders(e: Editor)
  {
    e.application.Some?
  }

  /** Typing in the notes box and choosing in the status select. */
  function EditNotes(e: Editor, notes: string): Editor
  {
    e.(adminNotes := notes)
  }

  function ChooseStatus(e: Editor, s: AppStatus): Editor
  {
    e.(status := s)
  }

  /** The select's four options, whatever the current status. */
  const StatusOptions: seq<AppStatus> := [Nova, EmAnalise, Aprovada, Rejeitada]

  lemma EveryStatusIsOffered(s: AppStatus)
    ensures s in StatusOptions
  {
    ConstantsMatchEnums();
  }

  datatype SaveOutcome = SaveOutcome(editor: Editor, db: Db, effects: seq<Effect>, toast: Option<Toast>)

  /**
   * `handleSave`: one update of the opened application's row setting its
   * status and notes from the buffers (an empty notes buffer is stored as
   * "", not null). On success the parent refreshes and then closes; on
   * failure it is told nothing. The buffers are kept and `isSaving` ends
   * false.
   */
  function Save(e: Editor, db: Db, updateFails: bool): (r: SaveOutcome)
    requires Renders(e) && !e.isSaving
    ensures r.editor == e
    ensures updateFails ==> r.db == db && r.effects == [] && r.toast == Some(Failure(SaveFailed))
    ensures !updateFails ==> r.effects == [OnUpdate, OnClose] && r.toast == Some(Success(Saved))
    ensures !updateFails ==> |r.db.applications| == |db.applications|
    ensures !updateFails ==> forall i :: 0 <= i < |db.applications| ==>
      if db.applications[i].id == e.application.value.id then
        r.db.applications[i] == db.applications[i].(status := e.status, adminNotes := Some(e.adminNotes))
      else r.db.applications[i] == db.applications[i]
    ensures r.db.profiles == db.profiles && r.db.userRoles == db.userRoles
  {
    if updateFails then SaveOutcome(e, db, [], Some(Failure(SaveFailed)))
    else
      var db' := UpdateApplications(db, e.application.value.id, Patch(Some(e.status), Some(e.adminNotes)));
      SaveOutcome(e, db', [OnUpdate, OnClose], Some(Success(Saved)))
  }

  /** "Cancelar": the parent closes the dialog; nothing is written and nothing is announced. */
  function Cancel(e: Editor, db: Db): (r: SaveOutcome)
    ensures r.db == db && r.effects == [OnClose] && r.editor == e && r.toast.None?
  {
    SaveOutcome(e, db, [OnClose], None)
  }

  /** The status and notes text of the rows carrying `id`. */
  predicate ReviewIs(db: Db, id: string, s: AppStatus, notes: string)
  {
    forall i :: 0 <= i < |db.applications| && db.applications[i].id == id ==>
      db.applications[i].status == s && NotesText(db.applications[i].adminNotes) == notes
  }

  /**
   * Opened as intended and saved without edits, the review of the
   * application is what it was: the same status and the same notes text.
   */
  lemma SaveWithoutEditsKeepsReview(a: Application, db: Db)
    requires forall i :: 0 <= i < |db.applications| && db.applications[i].id == a.id ==> db.applications[i] == a
    ensures ReviewIs(Save(Show(a), db, false).db, a.id, a.status, NotesText(a.adminNotes))
  {
  }

  /**
   * As written, the dashboard mounts the editor with no application, then
   * passes the one an administrator opens; saving it without edits sets its
   * status back to `nova` and erases its notes.
   */
  lemma AsWrittenSaveResetsReview(a: Application, db: Db)
    requires forall i :: 0 <= i < |db.applications| && db.applications[i].id == a.id ==> db.applications[i] == a
    ensures ReviewIs(Save(ShowAsWritten(Mount(None), Some(a)), db, false).db, a.id, Nova, "")
  {
  }

  /** Concretely: an approved application with a note loses both. */
  lemma AsWrittenApprovedBecomesNew(a: Application)
    requires a.status == Aprovada && a.adminNotes == Some("Documentos verificados")
    ensures var after := Save(ShowAsWritten(Mount(None), Some(a)), Db([a], [], []), false).db.applications[0];
      after.status == Nova && after.adminNotes == Some("") && after.status != a.status
  {
  }

  /**
   * As written, the buffers opened for a second application are whatever
   * was left from the first.
   */
  lemma AsWrittenBuffersCarryOver(e: Editor, a: Application, b: Application, notes: string, s: AppStatus)
    ensures var first := ChooseStatus(EditNotes(ShowAsWritten(e, Some(a)), notes), s);
      var second := ShowAsWritten(first, Some(b));
      second.application == Some(b) && second.adminNotes == notes && second.status == s
  {
  }
}

=== FILE: schema.dfy ===
/**
 * The generated database types: the four enums with their wire names and
 * `Constants` arrays, and the Row / Insert shapes of the three tables the
 * screens use. A nullable column is an `Option`; an optional Insert key is an
 * `Option` too, so a nullable optional key is an `Option<Option<…>>`.
 */
module Schema {
  import opened Wrappers

  type UserId = string

  /**
   * An ISO-8601 timestamp as the backend serialises it, always in UTC and in
   * one layout, so comparing the texts compares the instants.
   */
  type Timestamp = string

  // ---------------------------------------------------------------- enums

  datatype AppRole = Admin | Moderator | Candidato

  datatype AppStatus = Nova | EmAnalise | Aprovada | Rejeitada

  datatype EducationLevel = Primario | Secundario | Tecnico | Universitario | PosGraduacao

  datatype ScholarshipType = EnsinoFundamental | FormacaoProfissional | UniversitariaComparticipada | Outras

  function RoleText(r: AppRole): string
  {
    match r
    case Admin => "admin"
    case Moderator => "moderator"
    case Candidato => "candidato"
  }

  function StatusText(s: AppStatus): string
  {
    match s
    case Nova => "nova"
    case EmAnalise => "em_analise"
    case Aprovada => "aprovada"
    case Rejeitada => "rejeitada"
  }

  function EducationText(e: EducationLevel): string
  {
    match e
    case Primario => "primario"
    case Secundario => "secundario"
    case Tecnico => "tecnico"
    case Universitario => "universitario"
    case PosGraduacao => "pos_graduacao"
  }

  function ScholarshipText(k: ScholarshipType): string
  {
    match k
    case EnsinoFundamental => "ensino_fundamental"
    case FormacaoProfissional => "formacao_profissional"
    case UniversitariaComparticipada => "universitaria_comparticipada"
    case Outras => "outras"
  }

  /** Reading a wire name back; a text that names no member is `None`. */
  function RoleFromText(t: string): (r: Option<AppRole>)
    ensures r.Some? ==> RoleText(r.value) == t
    ensures forall x :: RoleText(x) == t ==> r == Some(x)
  {
    if t == "admin" then Some(Admin)
    else if t == "moderator" then Some(Moderator)
    else if t == "candidato" then Some(Candidato)
    else None
  }

  function StatusFromText(t: string): (r: Option<AppStatus>)
    ensures r.Some? ==> StatusText(r.value) == t
    ensures forall x :: StatusText(x) == t ==> r == Some(x)
  {
    if t == "nova" then Some(Nova)
    else if t == "em_analise" then Some(EmAnalise)
    else if t == "aprovada" then Some(Aprovada)
    else if t == "rejeitada" then Some(Rejeitada)
    else None
  }

  function EducationFromText(t: string): (r: Option<EducationLevel>)
    ensures r.Some? ==> EducationText(r.value) == t
    ensures forall x :: EducationText(x) == t ==> r == Some(x)
  {
    if t == "primario" then Some(Primario)
    else if t == "secundario" then Some(Secundario)
    else if t == "tecnico" then Some(Tecnico)
    else if t == "universitario" then Some(Universitario)
    else if t == "pos_graduacao" then Some(PosGraduacao)
    else None
  }

  function ScholarshipFromText(t: string): (r: Option<ScholarshipType>)
    ensures r.Some? ==> ScholarshipText(r.value) == t
    ensures forall x :: ScholarshipText(x) == t ==> r == Some(x)
  {
    if t == "ensino_fundamental" then Some(EnsinoFundamental)
    else if t == "formacao_profissional" then Some(FormacaoProfissional)
    else if t == "universitaria_comparticipada" then Some(UniversitariaComparticipada)
    else if t == "outras" then Some(Outras)
    else None
  }

  /** Every member in declaration order, the order the generated unions list them. */
  const AllRoles: seq<AppRole> := [Admin, Moderator, Candidato]
  const AllStatuses: seq<AppStatus> := [Nova, EmAnalise, Aprovada, Rejeitada]
  const AllEducationLevels: seq<EducationLevel> := [Primario, Secundario, Tecnico, Universitario, PosGraduacao]
  const AllScholarshipTypes: seq<ScholarshipType> := [EnsinoFundamental, FormacaoProfissional, UniversitariaComparticipada, Outras]

  /** The runtime `Constants.public.Enums` arrays, as the generated file spells them. */
  const RoleConstants: seq<string> := ["admin", "moderator", "candidato"]
  const StatusConstants: seq<string> := ["nova", "em_analise", "aprovada", "rejeitada"]
  const EducationConstants: seq<string> := ["primario", "secundario", "tecnico", "universitario", "pos_graduacao"]
  const ScholarshipConstants: seq<string> := ["ensino_fundamental", "formacao_profissional", "universitaria_comparticipada", "outras"]

  /**
   * Each `Constants` array lists exactly the wire names of its enum, once
   * each and in declaration order, and every member is listed.
   */
  lemma ConstantsMatchEnums()
    ensures |RoleConstants| == |AllRoles| == 3
    ensures forall i :: 0 <= i < |AllRoles| ==> RoleConstants[i] == RoleText(AllRoles[i])
    ensures forall r: AppRole :: r in AllRoles
    ensures |StatusConstants| == |AllStatuses| == 4
    ensures forall i :: 0 <= i < |AllStatuses| ==> StatusConstants[i] == StatusText(AllStatuses[i])
    ensures forall s: AppStatus :: s in AllStatuses
    ensures |EducationConstants| == |AllEducationLevels| == 5
    ensures forall i :: 0 <= i < |AllEducationLevels| ==> EducationConstants[i] == EducationText(AllEducationLevels[i])
    ensures forall e: EducationLevel :: e in AllEducationLevels
    ensures |ScholarshipConstants| == |AllScholarshipTypes| == 4
    ensures forall i :: 0 <= i < |AllScholarshipTypes| ==> ScholarshipConstants[i] == ScholarshipText(AllScholarshipTypes[i])
    ensures forall k: ScholarshipType :: k in AllScholarshipTypes
  {
    forall r: AppRole ensures r in AllRoles {
      match r
      case Admin => assert AllRoles[0] == r;
      case Moderator => assert AllRoles[1] == r;
      case Candidato => assert AllRoles[2] == r;
    }
    forall s: AppStatus ensures s in AllStatuses {
      match s
      case Nova => assert AllStatuses[0] == s;
      case EmAnalise => assert AllStatuses[1] == s;
      case Aprovada => assert AllStatuses[2] == s;
      case Rejeitada => assert AllStatuses[3] == s;
    }
    forall e: EducationLevel ensures e in AllEducationLevels {
      match e
      case Primario => assert AllEducationLevels[0] == e;
      case Secundario => assert AllEducationLevels[1] == e;
      case Tecnico => assert AllEducationLevels[2] == e;
      case Universitario => assert AllEducationLevels[3] == e;
      case PosGraduacao => assert AllEducationLevels[4] == e;
    }
    forall k: ScholarshipType ensures k in AllScholarshipTypes {
      match k
      case EnsinoFundamental => assert AllScholarshipTypes[0] == k;
      case FormacaoProfissional => assert AllScholarshipTypes[1] == k;
      case UniversitariaComparticipada => assert AllScholarshipTypes[2] == k;
      case Outras => assert AllScholarshipTypes[3] == k;
    }
  }

  /** No wire name is listed twice, so the arrays are as long as the unions. */
  lemma ConstantsDistinct()
    ensures forall i, j :: 0 <= i < j < |RoleConstants| ==> RoleConstants[i] != RoleConstants[j]
    ensures forall i, j :: 0 <= i < j < |StatusConstants| ==> StatusConstants[i] != StatusConstants[j]
    ensures forall i, j :: 0 <= i < j < |EducationConstants| ==> EducationConstants[i] != EducationConstants[j]
    ensures forall i, j :: 0 <= i < j < |ScholarshipConstants| ==> ScholarshipConstants[i] != ScholarshipConstants[j]
  {
  }

  // ---------------------------------------------------------------- rows

  /**
   * `applications.Row`. Only `admin_notes`, `course`, `current_year` and
   * `user_id` are nullable.
   */
  datatype Application = Application(
    id: string,
    userId: Option<UserId>,
    createdAt: Timestamp,
    updatedAt: Timestamp,
    fullName: string,
    birthDate: string,
    biNumber: string,
    phone: string,
    email: string,
    address: string,
    province: string,
    municipality: string,
    educationLevel: EducationLevel,
    institution: string,
    course: Option<string>,
    currentYear: Option<int>,
    scholarshipType: ScholarshipType,
    householdIncome: string,
    householdMembers: int,
    employmentStatus: string,
    motivation: string,
    declarationAccepted: bool,
    status: AppStatus,
    adminNotes: Option<string>)

  /** `profiles.Row`. */
  datatype Profile = Profile(
    id: UserId,
    email: Option<string>,
    fullName: Option<string>,
    createdAt: Timestamp,
    updatedAt: Timestamp)

  /** `user_roles.Row`: one grant of one role to one user. */
  datatype RoleRow = RoleRow(id: string, userId: UserId, role: AppRole, createdAt: Timestamp)

  /**
   * `applications.Insert`: `id`, `status`, `admin_notes`, `user_id`,
   * `declaration_accepted`, `course`, `current_year` and the timestamps may be
   * left out; `household_members` and the personal, academic and scholarship
   * fields are required.
   */
  datatype ApplicationInsert = ApplicationInsert(
    id: Option<string>,
    userId: Option<Option<UserId>>,
    createdAt: Option<Timestamp>,
    updatedAt: Option<Timestamp>,
    fullName: string,
    birthDate: string,
    biNumber: string,
    phone: string,
    email: string,
    address: string,
    province: string,
    municipality: string,
    educationLevel: EducationLevel,
    institution: string,
    course: Option<Option<string>>,
    currentYear: Option<Option<int>>,
    scholarshipType: ScholarshipType,
    householdIncome: string,
    householdMembers: int,
    employmentStatus: string,
    motivation: string,
    declarationAccepted: Option<bool>,
    status: Option<AppStatus>,
    adminNotes: Option<Option<string>>)

  /** `created_at` as a sort key. */
  function AppCreatedAt(a: Application): Timestamp
  {
    a.createdAt
  }

  function ProfileCreatedAt(p: Profile): Timestamp
  {
    p.createdAt
  }
}

=== FILE: seqs.dfy ===
/**
 * Order-preserving filtering, counting and the newest-first ordering that the
 * backend's `order("created_at", { ascending: false })` produces.
 */
module Seqs {
  import opened Text

  /** Number of elements of `s` that satisfy `p`. */
  function Count<T>(s: seq<T>, p: T -> bool): (n: nat)
    ensures n <= |s|
  {
    if |s| == 0 then 0 else (if p(s[0]) then 1 else 0) + Count(s[1..], p)
  }

  /** `r` can be obtained from `s` by deleting elements: the order is kept. */
  predicate IsSubseq<T(==)>(r: seq<T>, s: seq<T>)
    decreases |s|
  {
    if |r| == 0 then true
    else if |s| == 0 then false
    else if r[0] == s[0] then IsSubseq(r[1..], s[1..])
    else IsSubseq(r, s[1..])
  }

  /** `s.filter(p)`. */
  function Filter<T(==)>(s: seq<T>, p: T -> bool): (r: seq<T>)
    ensures |r| == Count(s, p)
    ensures forall i :: 0 <= i < |r| ==> r[i] in s && p(r[i])
    ensures forall i :: 0 <= i < |s| && p(s[i]) ==> s[i] in r
    ensures IsSubseq(r, s)
  {
    if |s| == 0 then []
    else if p(s[0]) then [s[0]] + Filter(s[1..], p)
    else Filter(s[1..], p)
  }

  lemma {:induction false} SubseqLengthBound<T>(r: seq<T>, s: seq<T>, p: T -> bool)
    requires IsSubseq(r, s)
    requires forall i :: 0 <= i < |r| ==> p(r[i])
    ensures |r| <= Count(s, p)
    decreases |s|
  {
    if |r| > 0 && |s| > 0 {
      if r[0] == s[0] {
        SubseqLengthBound(r[1..], s[1..], p);
      } else {
        SubseqLengthBound(r, s[1..], p);
      }
    }
  }

  /**
   * An independent description of the filter: the only subsequence of `s`
   * whose elements all satisfy `p` and that is as long as the number of
   * elements satisfying `p` is `Filter(s, p)`.
   */
  lemma {:induction false} FilterUnique<T>(r: seq<T>, s: seq<T>, p: T -> bool)
    requires IsSubseq(r, s)
    requires forall i :: 0 <= i < |r| ==> p(r[i])
    requires |r| == Count(s, p)
    ensures r == Filter(s, p)
    decreases |s|
  {
    if |s| > 0 {
      if |r| > 0 && r[0] == s[0] {
        FilterUnique(r[1..], s[1..], p);
        assert r == [r[0]] + r[1..];
      } else {
        SubseqLengthBound(r, s[1..], p);
        FilterUnique(r, s[1..], p);
      }
    }
  }

  /** Filtering only looks at the predicate's values on the elements. */
  lemma {:induction false} FilterCongruent<T>(s: seq<T>, p: T -> bool, q: T -> bool)
    requires forall i :: 0 <= i < |s| ==> p(s[i]) == q(s[i])
    ensures Filter(s, p) == Filter(s, q)
    decreases |s|
  {
    if |s| > 0 {
      FilterCongruent(s[1..], p, q);
    }
  }

  /** Filtering twice is filtering once by the conjunction. */
  lemma {:induction false} FilterFilter<T>(s: seq<T>, p: T -> bool, q: T -> bool, pq: T -> bool)
    requires forall i :: 0 <= i < |s| ==> pq(s[i]) == (p(s[i]) && q(s[i]))
    ensures Filter(Filter(s, p), q) == Filter(s, pq)
    decreases |s|
  {
    if |s| > 0 {
      FilterFilter(s[1..], p, q, pq);
      if p(s[0]) {
        assert Filter(s, p) == [s[0]] + Filter(s[1..], p);
        assert (Filter(s, p))[1..] == Filter(s[1..], p);
      }
    }
  }

  /** A predicate every element satisfies keeps the whole sequence. */
  lemma {:induction false} FilterAll<T>(s: seq<T>, p: T -> bool)
    requires forall i :: 0 <= i < |s| ==> p(s[i])
    ensures Filter(s, p) == s
    decreases |s|
  {
    if |s| > 0 {
      FilterAll(s[1..], p);
      assert s == [s[0]] + s[1..];
    }
  }

  /** Counts over two predicates that exclude each other add up. */
  lemma {:induction false} CountDisjointUnion<T>(s: seq<T>, p: T -> bool, q: T -> bool, pq: T -> bool)
    requires forall i :: 0 <= i < |s| ==> !(p(s[i]) && q(s[i]))
    requires forall i :: 0 <= i < |s| ==> pq(s[i]) == (p(s[i]) || q(s[i]))
    ensures Count(s, pq) == Count(s, p) + Count(s, q)
    decreases |s|
  {
    if |s| > 0 {
      CountDisjointUnion(s[1..], p, q, pq);
    }
  }

  /** Counting only looks at the predicate's values on the elements. */
  lemma {:induction false} CountCongruent<T>(s: seq<T>, p: T -> bool, q: T -> bool)
    requires forall i :: 0 <= i < |s| ==> p(s[i]) == q(s[i])
    ensures Count(s, p) == Count(s, q)
    decreases |s|
  {
    if |s| > 0 {
      CountCongruent(s[1..], p, q);
    }
  }

  /** A predicate every element satisfies counts the whole sequence. */
  lemma {:induction false} CountAll<T>(s: seq<T>, p: T -> bool)
    requires forall i :: 0 <= i < |s| ==> p(s[i])
    ensures Count(s, p) == |s|
    decreases |s|
  {
    if |s| > 0 {
      CountAll(s[1..], p);
    }
  }

  // ---------------------------------------------------------------- newest first

  /** No element's key is below a later element's key. */
  predicate NewestFirst<T>(s: seq<T>, key: T -> string)
  {
    forall i, j :: 0 <= i < j < |s| ==> !LexLess(key(s[i]), key(s[j]))
  }

  /** Inserts `x` before the first element whose key is below its own. */
  function InsertByKey<T>(x: T, s: seq<T>, key: T -> string): (r: seq<T>)
    requires NewestFirst(s, key)
    ensures NewestFirst(r, key)
    ensures multiset(r) == multiset(s) + multiset{x}
    decreases |s|
  {
    if |s| == 0 then [x]
    else if !LexLess(key(x), key(s[0])) then
      InsertInFront(x, s, key);
      [x] + s
    else
      var tail := InsertByKey(x, s[1..], key);
      assert s == [s[0]] + s[1..];
      InsertBehind(x, s[0], s[1..], tail, key);
      [s[0]] + tail
  }

  lemma InsertInFront<T>(x: T, s: seq<T>, key: T -> string)
    requires |s| > 0 && NewestFirst(s, key)
    requires !LexLess(key(x), key(s[0]))
    ensures NewestFirst([x] + s, key)
  {
    var r := [x] + s;
    forall i, j | 0 <= i < j < |r|
      ensures !LexLess(key(r[i]), key(r[j]))
    {
      if i == 0 && j > 1 {
        NotLessTransitive(key(x), key(s[0]), key(s[j - 1]));
      }
    }
  }

  lemma InsertBehind<T>(x: T, head: T, s: seq<T>, tail: seq<T>, key: T -> string)
    requires NewestFirst([head] + s, key) && NewestFirst(tail, key)
    requires LexLess(key(x), key(head))
    requires multiset(tail) == multiset(s) + multiset{x}
    ensures NewestFirst([head] + tail, key)
  {
    var r := [head] + tail;
    forall i, j | 0 <= i < j < |r|
      ensures !LexLess(key(r[i]), key(r[j]))
    {
      if i == 0 {
        var y := tail[j - 1];
        assert r[j] == y;
        assert y in multiset(tail);
        if y == x {
          LexLessAsymmetric(key(x), key(head));
        } else {
          assert y in multiset(s);
          assert y in s;
          var k :| 0 <= k < |s| && s[k] == y;
          var hs := [head] + s;
          assert hs[0] == head && hs[k + 1] == y;
          assert !LexLess(key(hs[0]), key(hs[k + 1]));
        }
      } else {
        assert r[i] == tail[i - 1] && r[j] == tail[j - 1];
      }
    }
  }

  /** A stable insertion sort, newest first; it keeps every row. */
  function SortNewestFirst<T>(s: seq<T>, key: T -> string): (r: seq<T>)
    ensures NewestFirst(r, key)
    ensures multiset(r) == multiset(s)
    decreases |s|
  {
    if |s| == 0 then []
    else
      assert s == [s[0]] + s[1..];
      InsertByKey(s[0], SortNewestFirst(s[1..], key), key)
  }
}

=== FILE: store.dfy ===
/**
 * The hosted backend as an in-memory store: three tables and the handful of
 * queries and commands the screens issue. Sessions, row-level security and
 * the internals of `has_role` stay on the server; the unique constraint on
 * `(user_id, role)` is the store invariant `RolePairsUnique`. A transient
 * failure of a call is chosen by the caller of the screen functions and never
 * reaches this module: every operation here is the call that succeeded.
 */
module Store {
  import opened Wrappers
  import opened Text
  import opened Seqs
  import opened Schema

  datatype Db = Db(applications: seq<Application>, profiles: seq<Profile>, userRoles: seq<RoleRow>)

  /** The errors the screens can observe, with the Postgres / PostgREST code each carries. */
  datatype DbError =
    | UniqueViolation
    | NotNullViolation
    | InvalidTextRepresentation
    | MultipleRows
    | Unavailable

  function ErrorCode(e: DbError): string
  {
    match e
    case UniqueViolation => "23505"
    case NotNullViolation => "23502"
    case InvalidTextRepresentation => "22P02"
    case MultipleRows => "PGRST116"
    case Unavailable => ""
  }

  /** Only a duplicate grant carries the code the role screen looks for. */
  lemma OnlyUniqueViolationIs23505(e: DbError)
    ensures ErrorCode(e) == "23505" <==> e == UniqueViolation
  {
  }

  // ---------------------------------------------------------------- roles

  /** The unique constraint on `(user_id, role)`. */
  predicate RolePairsUnique(rows: seq<RoleRow>)
  {
    forall i, j :: 0 <= i < j < |rows| ==> !(rows[i].userId == rows[j].userId && rows[i].role == rows[j].role)
  }

  /** `has_role(_role, _user_id)`: some row grants `role` to `uid`. */
  predicate HasRole(db: Db, role: AppRole, uid: UserId)
  {
    exists i :: 0 <= i < |db.userRoles| && db.userRoles[i].userId == uid && db.userRoles[i].role == role
  }

  /** The `.eq("user_id", uid)` test on role rows. */
  function OwnerTest(uid: UserId): RoleRow -> bool
  {
    (x: RoleRow) => x.userId == uid
  }

  /**
   * `select("role").eq("user_id", uid)`: one role per row of `uid`, in table
   * order, so the k-th entry is the role of the k-th row of `uid`.
   */
  function RolesIn(rows: seq<RoleRow>, uid: UserId): (r: seq<AppRole>)
    ensures |r| == Count(rows, OwnerTest(uid))
    ensures forall k :: 0 <= k < |r| ==> r[k] == Filter(rows, OwnerTest(uid))[k].role
    ensures forall role :: role in r <==> exists i :: 0 <= i < |rows| && rows[i].userId == uid && rows[i].role == role
  {
    var owned := Filter(rows, OwnerTest(uid));
    var r := seq(|owned|, k requires 0 <= k < |owned| => owned[k].role);
    RolesOfOwnedRows(rows, uid, owned, r);
    r
  }

  /** The roles read off the rows of `uid` are exactly the roles those rows grant. */
  lemma RolesOfOwnedRows(rows: seq<RoleRow>, uid: UserId, owned: seq<RoleRow>, roles: seq<AppRole>)
    requires owned == Filter(rows, OwnerTest(uid))
    requires |roles| == |owned| && forall k :: 0 <= k < |roles| ==> roles[k] == owned[k].role
    ensures forall role :: role in roles <==> exists i :: 0 <= i < |rows| && rows[i].userId == uid && rows[i].role == role
  {
    forall role | role in roles
      ensures exists i :: 0 <= i < |rows| && rows[i].userId == uid && rows[i].role == role
    {
      var k :| 0 <= k < |roles| && roles[k] == role;
      assert owned[k] in rows && OwnerTest(uid)(owned[k]);
      var i :| 0 <= i < |rows| && rows[i] == owned[k];
    }
    forall i | 0 <= i < |rows| && rows[i].userId == uid
      ensures rows[i].role in roles
    {
      assert OwnerTest(uid)(rows[i]);
      assert rows[i] in owned;
      var k :| 0 <= k < |owned| && owned[k] == rows[i];
      assert roles[k] == rows[i].role;
    }
  }

  function SelectRolesOf(db: Db, uid: UserId): (r: seq<AppRole>)
    ensures forall role :: role in r <==> HasRole(db, role, uid)
  {
    RolesIn(db.userRoles, uid)
  }

  /**
   * `insert({ user_id, role })`: the server refuses a pair that already
   * exists with the unique-violation error and otherwise appends the row.
   */
  function InsertRole(db: Db, uid: UserId, role: AppRole, rowId: string, now: Timestamp): (r: Result<Db, DbError>)
    ensures r.Err? <==> HasRole(db, role, uid)
    ensures r.Err? ==> r.error == UniqueViolation
    ensures r.Ok? ==> HasRole(r.value, role, uid)
    ensures r.Ok? ==> r.value.applications == db.applications && r.value.profiles == db.profiles
    ensures r.Ok? ==> forall u, q :: (u != uid || q != role) ==> (HasRole(r.value, q, u) <==> HasRole(db, q, u))
    ensures RolePairsUnique(db.userRoles) && r.Ok? ==> RolePairsUnique(r.value.userRoles)
  {
    if HasRole(db, role, uid) then Err(UniqueViolation)
    else
      var rows := db.userRoles + [RoleRow(rowId, uid, role, now)];
      AppendKeepsOtherPairs(db, RoleRow(rowId, uid, role, now));
      Ok(db.(userRoles := rows))
  }

  lemma AppendKeepsOtherPairs(db: Db, row: RoleRow)
    ensures HasRole(db.(userRoles := db.userRoles + [row]), row.role, row.userId)
    ensures forall u, q :: (u != row.userId || q != row.role) ==>
      (HasRole(db.(userRoles := db.userRoles + [row]), q, u) <==> HasRole(db, q, u))
    ensures RolePairsUnique(db.userRoles) && !HasRole(db, row.role, row.userId) ==>
      RolePairsUnique(db.userRoles + [row])
  {
    var rows := db.userRoles + [row];
    assert rows[|rows| - 1] == row;
    forall u, q | u != row.userId || q != row.role
      ensures HasRole(db.(userRoles := rows), q, u) <==> HasRole(db, q, u)
    {
      if HasRole(db, q, u) {
        var i :| 0 <= i < |db.userRoles| && db.userRoles[i].userId == u && db.userRoles[i].role == q;
        assert rows[i] == db.userRoles[i];
      }
    }
  }

  predicate IsPair(r: RoleRow, uid: UserId, role: AppRole)
  {
    r.userId == uid && r.role == role
  }

  function PairTest(uid: UserId, role: AppRole): RoleRow -> bool
  {
    (x: RoleRow) => IsPair(x, uid, role)
  }

  /**
   * Under the unique constraint a pair is granted by one row at most: by
   * exactly one when the user has the role, by none otherwise.
   */
  lemma {:induction false} UniquePairCount(rows: seq<RoleRow>, uid: UserId, role: AppRole)
    requires RolePairsUnique(rows)
    ensures Count(rows, PairTest(uid, role)) == if HasRole(Db([], [], rows), role, uid) then 1 else 0
    decreases |rows|
  {
    if |rows| > 0 {
      var tail := rows[1..];
      UniqueTail(rows);
      UniquePairCount(tail, uid, role);
      HasRoleCons(rows, uid, role);
      if IsPair(rows[0], uid, role) {
        FirstPairIsTheOnlyOne(rows, uid, role);
      }
    }
  }

  lemma UniqueTail(rows: seq<RoleRow>)
    requires |rows| > 0 && RolePairsUnique(rows)
    ensures RolePairsUnique(rows[1..])
  {
    var tail := rows[1..];
    forall i, j | 0 <= i < j < |tail|
      ensures !(tail[i].userId == tail[j].userId && tail[i].role == tail[j].role)
    {
      assert tail[i] == rows[i + 1] && tail[j] == rows[j + 1];
    }
  }

  /** A pair is granted by a table when its first row grants it or the rest does. */
  lemma HasRoleCons(rows: seq<RoleRow>, uid: UserId, role: AppRole)
    requires |rows| > 0
    ensures HasRole(Db([], [], rows), role, uid) <==> IsPair(rows[0], uid, role) || HasRole(Db([], [], rows[1..]), role, uid)
  {
    var tail := rows[1..];
    if HasRole(Db([], [], rows), role, uid) && !IsPair(rows[0], uid, role) {
      var k :| 0 <= k < |rows| && rows[k].userId == uid && rows[k].role == role;
      assert tail[k - 1] == rows[k];
    }
    if HasRole(Db([], [], tail), role, uid) {
      var k :| 0 <= k < |tail| && tail[k].userId == uid && tail[k].role == role;
      assert rows[k + 1] == tail[k];
    }
    if IsPair(rows[0], uid, role) {
      assert rows[0].userId == uid && rows[0].role == role;
    }
  }

  /** Under the unique constraint, a pair the first row grants is granted by no later row. */
  lemma FirstPairIsTheOnlyOne(rows: seq<RoleRow>, uid: UserId, role: AppRole)
    requires |rows| > 0 && RolePairsUnique(rows) && IsPair(rows[0], uid, role)
    ensures !HasRole(Db([], [], rows[1..]), role, uid)
  {
    var tail := rows[1..];
    forall k | 0 <= k < |tail|
      ensures !(tail[k].userId == uid && tail[k].role == role)
    {
      assert rows[k + 1] == tail[k];
    }
  }

  /** The rows a delete of the pair `(uid, role)` leaves behind, in order. */
  function KeepOthers(rows: seq<RoleRow>, uid: UserId, role: AppRole): seq<RoleRow>
  {
    Filter(rows, (x: RoleRow) => !IsPair(x, uid, role))
  }

  /** `delete().eq("user_id", uid).eq("role", role)`: only rows matching both go. */
  function DeleteRole(db: Db, uid: UserId, role: AppRole): (r: Db)
    ensures !HasRole(r, role, uid)
    ensures forall u, q :: (u != uid || q != role) ==> (HasRole(r, q, u) <==> HasRole(db, q, u))
    ensures IsSubseq(r.userRoles, db.userRoles)
    ensures r.applications == db.applications && r.profiles == db.profiles
    ensures RolePairsUnique(db.userRoles) ==> RolePairsUnique(r.userRoles)
  {
    DeleteKeepsOtherPairs(db, uid, role);
    db.(userRoles := KeepOthers(db.userRoles, uid, role))
  }

  lemma DeleteKeepsOtherPairs(db: Db, uid: UserId, role: AppRole)
    ensures forall u, q :: (u != uid || q != role) ==>
      (HasRole(db.(userRoles := KeepOthers(db.userRoles, uid, role)), q, u) <==> HasRole(db, q, u))
    ensures RolePairsUnique(db.userRoles) ==> RolePairsUnique(KeepOthers(db.userRoles, uid, role))
  {
    var kept := KeepOthers(db.userRoles, uid, role);
    var r := db.(userRoles := kept);
    forall u, q | u != uid || q != role
      ensures HasRole(r, q, u) <==> HasRole(db, q, u)
    {
      if HasRole(db, q, u) {
        var i :| 0 <= i < |db.userRoles| && db.userRoles[i].userId == u && db.userRoles[i].role == q;
        assert db.userRoles[i] in kept;
      }
    }
    if RolePairsUnique(db.userRoles) {
      SubseqKeepsUnique(kept, db.userRoles);
    }
  }

  lemma {:induction false} SubseqKeepsUnique(r: seq<RoleRow>, s: seq<RoleRow>)
    requires IsSubseq(r, s) && RolePairsUnique(s)
    ensures RolePairsUnique(r)
    decreases |s|
  {
    if |r| > 0 && |s| > 0 {
      assert RolePairsUnique(s[1..]);
      if r[0] == s[0] {
        SubseqKeepsUnique(r[1..], s[1..]);
        SubseqMembers(r[1..], s[1..]);
        forall j | 1 <= j < |r|
          ensures !(r[0].userId == r[j].userId && r[0].role == r[j].role)
        {
          assert r[j] == r[1..][j - 1];
          var k :| 0 <= k < |s[1..]| && s[1..][k] == r[j];
          assert s[k + 1] == r[j];
        }
      } else {
        SubseqKeepsUnique(r, s[1..]);
      }
    }
  }

  lemma {:induction false} SubseqMembers<T>(r: seq<T>, s: seq<T>)
    requires IsSubseq(r, s)
    ensures forall i :: 0 <= i < |r| ==> exists k :: 0 <= k < |s| && s[k] == r[i]
    decreases |s|
  {
    if |r| > 0 && |s| > 0 {
      if r[0] == s[0] {
        SubseqMembers(r[1..], s[1..]);
        forall i | 1 <= i < |r|
          ensures exists k :: 0 <= k < |s| && s[k] == r[i]
        {
          assert r[i] == r[1..][i - 1];
          var k :| 0 <= k < |s[1..]| && s[1..][k] == r[i];
          assert s[k + 1] == r[i];
        }
        assert s[0] == r[0];
      } else {
        SubseqMembers(r, s[1..]);
        forall i | 0 <= i < |r|
          ensures exists k :: 0 <= k < |s| && s[k] == r[i]
        {
          var k :| 0 <= k < |s[1..]| && s[1..][k] == r[i];
          assert s[k + 1] == r[i];
        }
      }
    }
  }

  // ---------------------------------------------------------------- profiles

  /** `select("*").order("created_at", { ascending: false })` on profiles. */
  function SelectProfiles(db: Db): (r: seq<Profile>)
    ensures NewestFirst(r, ProfileCreatedAt)
    ensures multiset(r) == multiset(db.profiles)
  {
    SortNewestFirst(db.profiles, ProfileCreatedAt)
  }

  /**
   * `select("*").eq("id", id).maybeSingle()`: no row is `None`, one row is
   * that row, more than one is an error.
   */
  function ProfileById(db: Db, id: UserId): (r: Result<Option<Profile>, DbError>)
    ensures r.Ok? && r.value.Some? ==> r.value.value in db.profiles && r.value.value.id == id
    ensures r == Ok(None) <==> forall i :: 0 <= i < |db.profiles| ==> db.profiles[i].id != id
    ensures r.Err? <==> Count(db.profiles, IdTest(id)) >= 2
    ensures r.Err? ==> r.error == MultipleRows
    ensures forall i :: 0 <= i < |db.profiles| && db.profiles[i].id == id && Count(db.profiles, IdTest(id)) == 1 ==>
      r == Ok(Some(db.profiles[i]))
  {
    var rows := Filter(db.profiles, IdTest(id));
    if |rows| == 0 then Ok(None)
    else if |rows| == 1 then Ok(Some(rows[0]))
    else Err(MultipleRows)
  }

  /** The `.eq("id", id)` test on profiles. */
  function IdTest(id: UserId): Profile -> bool
  {
    (p: Profile) => p.id == id
  }

  /** `update({ full_name: name }).eq("id", id)`: only that column of that row. */
  function UpdateProfileName(db: Db, id: UserId, name: string): (r: Db)
    ensures |r.profiles| == |db.profiles|
    ensures forall i :: 0 <= i < |db.profiles| && db.profiles[i].id != id ==> r.profiles[i] == db.profiles[i]
    ensures forall i :: 0 <= i < |db.profiles| && db.profiles[i].id == id ==>
      r.profiles[i].fullName == Some(name) && r.profiles[i].(fullName := db.profiles[i].fullName) == db.profiles[i]
    ensures r.applications == db.applications && r.userRoles == db.userRoles
  {
    db.(profiles := seq(|db.profiles|, i requires 0 <= i < |db.profiles| =>
      if db.profiles[i].id == id then db.profiles[i].(fullName := Some(name)) else db.profiles[i]))
  }

  // ---------------------------------------------------------------- applications

  /** `select("*").order("created_at", { ascending: false })`: every row, newest first. */
  function SelectApplications(db: Db): (r: seq<Application>)
    ensures NewestFirst(r, AppCreatedAt)
    ensures multiset(r) == multiset(db.applications)
  {
    SortNewestFirst(db.applications, AppCreatedAt)
  }

  predicate OwnedBy(a: Application, uid: UserId)
  {
    a.userId == Some(uid)
  }

  /** The same query narrowed by `.eq("user_id", uid)`. */
  function SelectApplicationsOf(db: Db, uid: UserId): (r: seq<Application>)
    ensures forall i :: 0 <= i < |r| ==> r[i].userId == Some(uid) && r[i] in db.applications
    ensures forall i :: 0 <= i < |db.applications| && db.applications[i].userId == Some(uid) ==> db.applications[i] in r
    ensures |r| == Count(db.applications, (a: Application) => OwnedBy(a, uid))
    ensures NewestFirst(r, AppCreatedAt)
  {
    var mine := Filter(db.applications, (a: Application) => OwnedBy(a, uid));
    var r := SortNewestFirst(mine, AppCreatedAt);
    assert |r| == |multiset(r)| == |multiset(mine)| == |mine|;
    forall i | 0 <= i < |r|
      ensures r[i].userId == Some(uid) && r[i] in db.applications
    {
      assert r[i] in multiset(mine);
    }
    forall i | 0 <= i < |db.applications| && db.applications[i].userId == Some(uid)
      ensures db.applications[i] in r
    {
      assert db.applications[i] in multiset(mine);
    }
    r
  }

  /** The columns an `update` writes; `None` leaves a column as it is. */
  datatype Patch = Patch(status: Option<AppStatus>, adminNotes: Option<string>)

  function ApplyPatch(a: Application, p: Patch): Application
  {
    a.(status := if p.status.Some? then p.status.value else a.status,
       adminNotes := if p.adminNotes.Some? then Some(p.adminNotes.value) else a.adminNotes)
  }

  /**
   * `update(patch).eq("id", id)`: rows with another id are untouched, and a
   * matching row changes in the patched columns only, so its owner never
   * changes.
   */
  function UpdateApplications(db: Db, id: string, p: Patch): (r: Db)
    ensures |r.applications| == |db.applications|
    ensures forall i :: 0 <= i < |db.applications| && db.applications[i].id != id ==> r.applications[i] == db.applications[i]
    ensures forall i :: 0 <= i < |db.applications| && db.applications[i].id == id ==>
      && r.applications[i].status == (if p.status.Some? then p.status.value else db.applications[i].status)
      && r.applications[i].adminNotes == (if p.adminNotes.Some? then Some(p.adminNotes.value) else db.applications[i].adminNotes)
      && r.applications[i].(status := db.applications[i].status, adminNotes := db.applications[i].adminNotes) == db.applications[i]
    ensures forall i :: 0 <= i < |db.applications| ==> r.applications[i].userId == db.applications[i].userId
    ensures r.profiles == db.profiles && r.userRoles == db.userRoles
  {
    db.(applications := seq(|db.applications|, i requires 0 <= i < |db.applications| =>
      if db.applications[i].id == id then ApplyPatch(db.applications[i], p) else db.applications[i]))
  }

  /** A number as it reaches the server in JSON: `JSON.stringify(NaN)` is `null`. */
  function JsonInt(n: JsNumber): Option<int>
  {
    match n
    case NaN => None
    case Num(v) => Some(v)
  }

  /**
   * The JSON body of the form's insert request, before the server has typed
   * it: enum columns are still text and numbers may be NaN.
   */
  datatype InsertBody = InsertBody(
    fullName: string,
    birthDate: string,
    biNumber: string,
    phone: string,
    email: string,
    province: string,
    municipality: string,
    address: string,
    educationLevel: string,
    institution: string,
    course: string,
    currentYear: Option<JsNumber>,
    scholarshipType: string,
    householdIncome: string,
    householdMembers: JsNumber,
    employmentStatus: string,
    motivation: string,
    declarationAccepted: bool)

  /**
   * How the server types an insert body against `applications.Insert`: an
   * enum text that names no member is invalid input, a NaN head count is a
   * null in a not-null column, and a NaN year is a null year.
   */
  function TypeInsert(b: InsertBody): (r: Result<ApplicationInsert, DbError>)
    ensures r.Ok? <==> EducationFromText(b.educationLevel).Some? && ScholarshipFromText(b.scholarshipType).Some? && b.householdMembers.Num?
    ensures r.Ok? ==> EducationText(r.value.educationLevel) == b.educationLevel
    ensures r.Ok? ==> ScholarshipText(r.value.scholarshipType) == b.scholarshipType
    ensures r.Ok? ==> Num(r.value.householdMembers) == b.householdMembers
    ensures r.Ok? ==> r.value.currentYear == (if b.currentYear.None? then Some(None) else Some(JsonInt(b.currentYear.value)))
    ensures r.Ok? ==> r.value.id.None? && r.value.userId.None? && r.value.status.None? && r.value.adminNotes.None?
  {
    match (EducationFromText(b.educationLevel), ScholarshipFromText(b.scholarshipType), JsonInt(b.householdMembers))
    case (None, _, _) => Err(InvalidTextRepresentation)
    case (_, None, _) => Err(InvalidTextRepresentation)
    case (_, _, None) => Err(NotNullViolation)
    case (Some(level), Some(kind), Some(members)) =>
      Ok(ApplicationInsert(
        id := None, userId := None, createdAt := None, updatedAt := None,
        fullName := b.fullName, birthDate := b.birthDate, biNumber := b.biNumber,
        phone := b.phone, email := b.email, address := b.address,
        province := b.province, municipality := b.municipality,
        educationLevel := level, institution := b.institution,
        course := Some(Some(b.course)),
        currentYear := Some(if b.currentYear.None? then None else JsonInt(b.currentYear.value)),
        scholarshipType := kind, householdIncome := b.householdIncome,
        householdMembers := members, employmentStatus := b.employmentStatus,
        motivation := b.motivation, declarationAccepted := Some(b.declarationAccepted),
        status := None, adminNotes := None))
  }

  /**
   * What the table fills in for keys an insert leaves out. The status
   * defaults to `nova` and the notes to null; the id, the clock, the owner
   * and the declaration flag come from the table definition, which is not
   * part of this model, so they are given here.
   */
  datatype ColumnDefaults = ColumnDefaults(id: string, now: Timestamp, owner: Option<UserId>, declarationAccepted: bool)

  function Value<T>(o: Option<T>, default: T): T
  {
    if o.Some? then o.value else default
  }

  /** The row an insert creates: the keys it sets, and the defaults for the others. */
  function NewRow(ins: ApplicationInsert, d: ColumnDefaults): Application
  {
    Application(
      id := Value(ins.id, d.id), userId := Value(ins.userId, d.owner),
      createdAt := Value(ins.createdAt, d.now), updatedAt := Value(ins.updatedAt, d.now),
      fullName := ins.fullName, birthDate := ins.birthDate, biNumber := ins.biNumber,
      phone := ins.phone, email := ins.email, address := ins.address,
      province := ins.province, municipality := ins.municipality,
      educationLevel := ins.educationLevel, institution := ins.institution,
      course := Value(ins.course, None), currentYear := Value(ins.currentYear, None),
      scholarshipType := ins.scholarshipType, householdIncome := ins.householdIncome,
      householdMembers := ins.householdMembers, employmentStatus := ins.employmentStatus,
      motivation := ins.motivation,
      declarationAccepted := Value(ins.declarationAccepted, d.declarationAccepted),
      status := Value(ins.status, Nova), adminNotes := Value(ins.adminNotes, None))
  }

  /** The insert body that sets every column to the value `a` holds. */
  function FullInsert(a: Application): ApplicationInsert
  {
    ApplicationInsert(
      id := Some(a.id), userId := Some(a.userId),
      createdAt := Some(a.createdAt), updatedAt := Some(a.updatedAt),
      fullName := a.fullName, birthDate := a.birthDate, biNumber := a.biNumber,
      phone := a.phone, email := a.email, address := a.address,
      province := a.province, municipality := a.municipality,
      educationLevel := a.educationLevel, institution := a.institution,
      course := Some(a.course), currentYear := Some(a.currentYear),
      scholarshipType := a.scholarshipType, householdIncome := a.householdIncome,
      householdMembers := a.householdMembers, employmentStatus := a.employmentStatus,
      motivation := a.motivation, declarationAccepted := Some(a.declarationAccepted),
      status := Some(a.status), adminNotes := Some(a.adminNotes))
  }

  /**
   * The defaults only fill gaps: an insert that sets every column creates
   * exactly the row it describes, whatever the table would have filled in.
   */
  lemma NewRowOfFullInsert(a: Application, d: ColumnDefaults)
    ensures NewRow(FullInsert(a), d) == a
  {
  }

  /** `from("applications").insert(body)`: atomic, one row or none. */
  function InsertApplication(db: Db, b: InsertBody, d: ColumnDefaults): (r: Result<Db, DbError>)
    ensures r.Err? ==> TypeInsert(b).Err?
    ensures r.Ok? ==> TypeInsert(b).Ok? && r.value.applications == db.applications + [NewRow(TypeInsert(b).value, d)]
    ensures r.Ok? ==> r.value.profiles == db.profiles && r.value.userRoles == db.userRoles
  {
    match TypeInsert(b)
    case Err(e) => Err(e)
    case Ok(ins) => Ok(db.(applications := db.applications + [NewRow(ins, d)]))
  }
}

=== FILE: submission_form.dfy ===
/**
 * The public six-step application form: the text answers and the declaration
 * box, the step navigation, and the submission that turns the answers into
 * one insert into `applications`. Nothing is validated on the page except the
 * declaration box; the numbers are read with `parseInt` and the enum answers
 * are sent as text, so it is the server that refuses a malformed answer.
 */
module SubmissionForm {
  import opened Wrappers
  import opened Text
  import opened Schema
  import opened Store
  import opened Toasts

  const Steps: seq<string> := ["Dados Pessoais", "Dados Acad\U{00E9}micos", "Tipo de Bolsa",
    "Situa\U{00E7}\U{00E3}o Socioecon\U{00F3}mica", "Motiva\U{00E7}\U{00E3}o", "Declara\U{00E7}\U{00E3}o"]

  /** The declaration step, the only one with the submit button. */
  const LastStep: nat := |Steps| - 1

  const DeclarationRequired: string := "Deve aceitar a declara\U{00E7}\U{00E3}o de veracidade"
  const Submitted: string := "Candidatura submetida com sucesso!"
  const SubmitFailed: string := "Erro ao submeter candidatura. Tente novamente."
  const ListPath: string := "/candidaturas"

  // ---------------------------------------------------------------- answers

  /** The form's text inputs and selects, each kept as the text the control holds. */
  datatype TextField =
    | FullName | BirthDate | BiNumber | Phone | Email | Province | Municipality | Address
    | EducationLevelField | Institution | Course | CurrentYear
    | ScholarshipTypeField
    | HouseholdIncome | HouseholdMembers | EmploymentStatus
    | Motivation

  datatype FormData = FormData(
    fullName: string, birthDate: string, biNumber: string, phone: string, email: string,
    province: string, municipality: string, address: string,
    educationLevel: string, institution: string, course: string, currentYear: string,
    scholarshipType: string,
    householdIncome: string, householdMembers: string, employmentStatus: string,
    motivation: string,
    declarationAccepted: bool)

  /** Every answer empty and the box unticked. */
  const EmptyForm: FormData := FormData("", "", "", "", "", "", "", "", "", "", "", "", "", "", "", "", "", false)

  function Get(f: FormData, k: TextField): string
  {
    match k
    case FullName => f.fullName
    case BirthDate => f.birthDate
    case BiNumber => f.biNumber
    case Phone => f.phone
    case Email => f.email
    case Province => f.province
    case Municipality => f.municipality
    case Address => f.address
    case EducationLevelField => f.educationLevel
    case Institution => f.institution
    case Course => f.course
    case CurrentYear => f.currentYear
    case ScholarshipTypeField => f.scholarshipType
    case HouseholdIncome => f.householdIncome
    case HouseholdMembers => f.householdMembers
    case EmploymentStatus => f.employmentStatus
    case Motivation => f.motivation
  }

  /** A form is nothing more than its seventeen answers and the box. */
  lemma FormExtensional(a: FormData, b: FormData)
    requires forall k :: Get(a, k) == Get(b, k)
    requires a.declarationAccepted == b.declarationAccepted
    ensures a == b
  {
    assert Get(a, FullName) == Get(b, FullName) && Get(a, BirthDate) == Get(b, BirthDate);
    assert Get(a, BiNumber) == Get(b, BiNumber) && Get(a, Phone) == Get(b, Phone);
    assert Get(a, Email) == Get(b, Email) && Get(a, Province) == Get(b, Province);
    assert Get(a, Municipality) == Get(b, Municipality) && Get(a, Address) == Get(b, Address);
    assert Get(a, EducationLevelField) == Get(b, EducationLevelField) && Get(a, Institution) == Get(b, Institution);
    assert Get(a, Course) == Get(b, Course) && Get(a, CurrentYear) == Get(b, CurrentYear);
    assert Get(a, ScholarshipTypeField) == Get(b, ScholarshipTypeField);
    assert Get(a, HouseholdIncome) == Get(b, HouseholdIncome) && Get(a, HouseholdMembers) == Get(b, HouseholdMembers);
    assert Get(a, EmploymentStatus) == Get(b, EmploymentStatus) && Get(a, Motivation) == Get(b, Motivation);
  }

  /** `updateField(k, v)` for a text control: that answer becomes `v`, nothing else moves. */
  function SetText(f: FormData, k: TextField, v: string): (r: FormData)
    ensures Get(r, k) == v
    ensures forall k' :: k' != k ==> Get(r, k') == Get(f, k')
    ensures r.declarationAccepted == f.declarationAccepted
  {
    match k
    case FullName => f.(fullName := v)
    case BirthDate => f.(birthDate := v)
    case BiNumber => f.(biNumber := v)
    case Phone => f.(phone := v)
    case Email => f.(email := v)
    case Province => f.(province := v)
    case Municipality => f.(municipality := v)
    case Address => f.(address := v)
    case EducationLevelField => f.(educationLevel := v)
    case Institution => f.(institution := v)
    case Course => f.(course := v)
    case CurrentYear => f.(currentYear := v)
    case ScholarshipTypeField => f.(scholarshipType := v)
    case HouseholdIncome => f.(householdIncome := v)
    case HouseholdMembers => f.(householdMembers := v)
    case EmploymentStatus => f.(employmentStatus := v)
    case Motivation => f.(motivation := v)
  }

  /** `updateField("declaration_accepted", b)`. */
  function SetDeclaration(f: FormData, b: bool): (r: FormData)
    ensures r.declarationAccepted == b
    ensures forall k :: Get(r, k) == Get(f, k)
  {
    f.(declarationAccepted := b)
  }

  /** Writing the same answer twice is writing it once; writing what is there changes nothing. */
  lemma SetTextLaws(f: FormData, k: TextField, v: string, w: string)
    ensures SetText(SetText(f, k, v), k, w) == SetText(f, k, w)
    ensures SetText(f, k, Get(f, k)) == f
  {
    FormExtensional(SetText(SetText(f, k, v), k, w), SetText(f, k, w));
    FormExtensional(SetText(f, k, Get(f, k)), f);
  }

  // ---------------------------------------------------------------- navigation

  datatype Form = Form(step: nat, data: FormData, isSubmitting: bool, toasts: seq<Toast>, navigateTo: Option<string>)

  const InitialForm: Form := Form(0, EmptyForm, false, [], None)

  predicate ValidStep(form: Form)
  {
    form.step <= LastStep
  }

  /** "Anterior": one step back, disabled on the first step. */
  function Back(form: Form): (r: Form)
    ensures ValidStep(form) ==> ValidStep(r)
    ensures r.step == if form.step == 0 then 0 else form.step - 1
    ensures r.(step := form.step) == form
  {
    if form.step == 0 then form else form.(step := form.step - 1)
  }

  /**
   * "Próximo": one step forward, shown only before the last step. The
   * answers are not looked at: an empty form can be walked to the end.
   */
  function Next(form: Form): (r: Form)
    ensures ValidStep(form) ==> ValidStep(r)
    ensures r.step == if form.step < LastStep then form.step + 1 else form.step
    ensures r.(step := form.step) == form
  {
    if form.step < LastStep then form.(step := form.step + 1) else form
  }

  function NextTimes(form: Form, n: nat): Form
    decreases n
  {
    if n == 0 then form else NextTimes(Next(form), n - 1)
  }

  /** From any step, enough presses of "Próximo" reach the declaration step, whatever was answered. */
  lemma {:induction false} NextReachesDeclaration(form: Form, n: nat)
    requires ValidStep(form) && form.step + n >= LastStep
    ensures NextTimes(form, n).step == LastStep
    ensures NextTimes(form, n).data == form.data
    decreases n
  {
    if n > 0 {
      NextReachesDeclaration(Next(form), n - 1);
    }
  }

  /** "Próximo" then "Anterior" returns to the same step before the last. */
  lemma BackUndoesNext(form: Form)
    requires form.step < LastStep
    ensures Back(Next(form)) == form
  {
  }

  // ---------------------------------------------------------------- submission

  /**
   * The insert body: every answer as typed, except that an empty year is
   * null and any other year, and the head count, go through `parseInt`.
   */
  function BuildPayload(f: FormData): InsertBody
  {
    InsertBody(
      fullName := f.fullName, birthDate := f.birthDate, biNumber := f.biNumber,
      phone := f.phone, email := f.email, province := f.province,
      municipality := f.municipality, address := f.address,
      educationLevel := f.educationLevel, institution := f.institution, course := f.course,
      currentYear := if f.currentYear == "" then None else Some(ParseInt(f.currentYear)),
      scholarshipType := f.scholarshipType, householdIncome := f.householdIncome,
      householdMembers := ParseInt(f.householdMembers), employmentStatus := f.employmentStatus,
      motivation := f.motivation, declarationAccepted := f.declarationAccepted)
  }

  /** The server accepts the body exactly when both selects hold a member's name and the head count is a number. */
  predicate Acceptable(f: FormData)
  {
    && EducationFromText(f.educationLevel).Some?
    && ScholarshipFromText(f.scholarshipType).Some?
    && ParseInt(f.householdMembers).Num?
  }

  /**
   * `handleSubmit`: an unticked declaration stops everything with a
   * warning. Otherwise one insert: on success the candidate is sent to the
   * list with a success toast, on any failure the form stays as it is with
   * an error toast. The answers and the step never change and the page is
   * never left submitting.
   */
  function HandleSubmit(form: Form, db: Db, d: ColumnDefaults, insertFails: bool): (r: (Form, Db))
    requires !form.isSubmitting
    ensures r.0.data == form.data && r.0.step == form.step && !r.0.isSubmitting
    ensures !form.data.declarationAccepted ==>
      r.1 == db && r.0 == form.(toasts := form.toasts + [Failure(DeclarationRequired)])
    ensures form.data.declarationAccepted && !insertFails && Acceptable(form.data) ==>
      && r.0 == form.(toasts := form.toasts + [Success(Submitted)], navigateTo := Some(ListPath))
      && |r.1.applications| == |db.applications| + 1
      && r.1.applications[..|db.applications|] == db.applications
      && r.1.profiles == db.profiles && r.1.userRoles == db.userRoles
    ensures form.data.declarationAccepted && (insertFails || !Acceptable(form.data)) ==>
      r.1 == db && r.0 == form.(toasts := form.toasts + [Failure(SubmitFailed)])
  {
    if !form.data.declarationAccepted then (form.(toasts := form.toasts + [Failure(DeclarationRequired)]), db)
    else
      var result := if insertFails then Err(Unavailable) else InsertApplication(db, BuildPayload(form.data), d);
      match result
      case Ok(db') =>
        assert db'.applications[..|db.applications|] == db.applications;
        (form.(toasts := form.toasts + [Success(Submitted)], navigateTo := Some(ListPath)), db')
      case Err(_) =>
        (form.(toasts := form.toasts + [Failure(SubmitFailed)]), db)
  }

  /** The row a successful submission adds. */
  function SubmittedRow(f: FormData, d: ColumnDefaults): Application
    requires Acceptable(f)
  {
    NewRow(TypeInsert(BuildPayload(f)).value, d)
  }

  /**
   * The row a successful submission adds carries the answers, the head count
   * as `parseInt` read it, the status `nova`, no notes, the ticked
   * declaration, and the owner the table's default gives it.
   */
  lemma SubmittedRowContents(form: Form, db: Db, d: ColumnDefaults)
    requires !form.isSubmitting && form.data.declarationAccepted && Acceptable(form.data)
    ensures var r := HandleSubmit(form, db, d, false);
      var row := r.1.applications[|db.applications|];
      && |r.1.applications| == |db.applications| + 1
      && row.fullName == form.data.fullName && row.email == form.data.email && row.phone == form.data.phone
      && row.province == form.data.province && row.course == Some(form.data.course)
      && EducationText(row.educationLevel) == form.data.educationLevel
      && ScholarshipText(row.scholarshipType) == form.data.scholarshipType
      && Num(row.householdMembers) == ParseInt(form.data.householdMembers)
      && row.currentYear == (if form.data.currentYear == "" then None else JsonInt(ParseInt(form.data.currentYear)))
      && row.status == Nova && row.adminNotes.None? && row.declarationAccepted
      && row.userId == d.owner
  {
    var b := BuildPayload(form.data);
    assert TypeInsert(b).Ok?;
  }

  /** An empty head count reaches the server as null and the insert is refused as a not-null violation. */
  lemma EmptyHeadCountIsRefused(f: FormData, db: Db, d: ColumnDefaults)
    requires f.householdMembers == ""
    requires EducationFromText(f.educationLevel).Some? && ScholarshipFromText(f.scholarshipType).Some?
    ensures InsertApplication(db, BuildPayload(f), d) == Err(NotNullViolation)
  {
    ParseIntEmpty();
  }

  /** A select left on its placeholder sends "" and the insert is refused as invalid enum text. */
  lemma UnsetSelectIsRefused(f: FormData, db: Db, d: ColumnDefaults)
    requires f.educationLevel == "" || f.scholarshipType == ""
    ensures InsertApplication(db, BuildPayload(f), d) == Err(InvalidTextRepresentation)
  {
  }

  /** `parseInt("0")` is 0. */
  lemma ParseIntZero()
    ensures ParseInt("0") == Num(0)
  {
    assert Numeral(0) == [DigitChar(0)];
    ParseIntDecimalText(0);
  }

  /**
   * Nothing on the page or in the insert asks for a positive head count: an
   * answer `parseInt` reads as zero, "0" among them, is stored as zero.
   */
  lemma ZeroHeadCountIsStored(form: Form, db: Db, d: ColumnDefaults)
    requires !form.isSubmitting && form.data.declarationAccepted && ParseInt(form.data.householdMembers) == Num(0)
    requires EducationFromText(form.data.educationLevel).Some? && ScholarshipFromText(form.data.scholarshipType).Some?
    ensures var r := HandleSubmit(form, db, d, false);
      r.0.navigateTo == Some(ListPath) && r.1.applications[|db.applications|].householdMembers == 0
  {
    SubmittedRowContents(form, db, d);
  }

  /** A typed year and head count reach the row as the numbers they spell. */
  lemma DecimalAnswersAreStored(form: Form, db: Db, d: ColumnDefaults, year: int, members: int)
    requires !form.isSubmitting && form.data.declarationAccepted && Acceptable(form.data)
    requires form.data.currentYear == DecimalText(year) && form.data.householdMembers == DecimalText(members)
    ensures var r := HandleSubmit(form, db, d, false);
      r.1.applications[|db.applications|].currentYear == Some(year)
      && r.1.applications[|db.applications|].householdMembers == members
  {
    ParseIntDecimalText(year);
    ParseIntDecimalText(members);
    SubmittedRowContents(form, db, d);
  }

  /** A first submission by a candidate, from a fresh table to one row awaiting review. */
  lemma FirstSubmissionExample(d: ColumnDefaults)
    ensures var f := FormData("Ana Silva", "2001-03-14", "004512345LA042", "923000000", "ana@exemplo.ao",
        "Luanda", "Belas", "Rua 1", "universitario", "Universidade Agostinho Neto", "Engenharia", "2",
        "universitaria_comparticipada", "50000-100000", "4", "estudante", "Quero estudar.", true);
      var r := HandleSubmit(Form(LastStep, f, false, [], None), Db([], [], []), d, false);
      && r.0.navigateTo == Some(ListPath)
      && |r.1.applications| == 1
      && r.1.applications[0].status == Nova
      && r.1.applications[0].adminNotes.None?
      && r.1.applications[0].householdMembers == 4
      && r.1.applications[0].currentYear == Some(2)
  {
    assert EducationFromText("universitario") == Some(Universitario);
    assert ScholarshipFromText("universitaria_comparticipada") == Some(UniversitariaComparticipada);
    var f := FormData("Ana Silva", "2001-03-14", "004512345LA042", "923000000", "ana@exemplo.ao",
      "Luanda", "Belas", "Rua 1", "universitario", "Universidade Agostinho Neto", "Engenharia", "2",
      "universitaria_comparticipada", "50000-100000", "4", "estudante", "Quero estudar.", true);
    assert DecimalText(4) == "4" && DecimalText(2) == "2";
    ParseIntDecimalText(4);
    ParseIntDecimalText(2);
    DecimalAnswersAreStored(Form(LastStep, f, false, [], None), Db([], [], []), d, 2, 4);
    SubmittedRowContents(Form(LastStep, f, false, [], None), Db([], [], []), d);
  }
}

=== FILE: text.dfy ===
/**
 * The few JavaScript string primitives the screens rely on: `toLowerCase`,
 * `includes`, the default string order used by `sort`, `join`, `split` and
 * `parseInt`. Each is modelled on ASCII text; what that leaves out is listed
 * in README.md.
 */
module Text {

  // ---------------------------------------------------------------- lower case

  /** ASCII lower-casing of one character; every other character is kept. */
  function LowerChar(c: char): char
  {
    if 'A' <= c <= 'Z' then (c as int + 32) as char else c
  }

  predicate IsUpperAscii(c: char)
  {
    'A' <= c <= 'Z'
  }

  /** `s.toLowerCase()` restricted to the ASCII letters. */
  function Lower(s: string): (r: string)
    ensures |r| == |s|
    ensures forall i :: 0 <= i < |s| ==> r[i] == LowerChar(s[i])
    ensures forall i :: 0 <= i < |r| ==> !IsUpperAscii(r[i])
  {
    if |s| == 0 then "" else [LowerChar(s[0])] + Lower(s[1..])
  }

  /** Lower-casing twice is lower-casing once. */
  lemma LowerIdempotent(s: string)
    ensures Lower(Lower(s)) == Lower(s)
  {
    assert forall i :: 0 <= i < |s| ==> Lower(Lower(s))[i] == Lower(s)[i];
  }

  // ---------------------------------------------------------------- includes

  predicate IsPrefix(p: string, s: string)
  {
    |p| <= |s| && s[..|p|] == p
  }

  /** `n` occurs in `h` starting at index `i`. */
  predicate OccursAt(h: string, n: string, i: int)
  {
    0 <= i && i + |n| <= |h| && h[i..i + |n|] == n
  }

  /** `h.includes(n)`, computed by scanning the start positions of `h`. */
  predicate Contains(h: string, n: string)
    decreases |h|
  {
    IsPrefix(n, h) || (|h| > 0 && Contains(h[1..], n))
  }

  /** The scan agrees with the definition of `includes`: some start index matches. */
  lemma {:induction false} ContainsIffOccurs(h: string, n: string)
    ensures Contains(h, n) <==> exists i :: OccursAt(h, n, i)
    decreases |h|
  {
    if |h| > 0 {
      ContainsIffOccurs(h[1..], n);
    }
    if Contains(h, n) {
      if IsPrefix(n, h) {
        assert OccursAt(h, n, 0);
      } else {
        var i :| OccursAt(h[1..], n, i);
        assert h[1..][i..i + |n|] == h[i + 1..i + 1 + |n|];
        assert OccursAt(h, n, i + 1);
      }
    }
    if exists i :: OccursAt(h, n, i) {
      var i :| OccursAt(h, n, i);
      if i == 0 {
        assert IsPrefix(n, h);
      } else {
        assert h[1..][i - 1..i - 1 + |n|] == h[i..i + |n|];
        assert OccursAt(h[1..], n, i - 1);
      }
    }
  }

  /** Every string includes the empty string. */
  lemma ContainsEmpty(h: string)
    ensures Contains(h, "")
  {
    assert IsPrefix("", h);
  }

  // ---------------------------------------------------------------- order

  /**
   * Lexicographic order on strings, character by character by code point, a
   * proper prefix first. It stands for JavaScript's default `sort`, and for
   * the server's `created_at` order on timestamps that share one layout and
   * one offset, where text order and time order agree.
   */
  predicate LexLess(a: string, b: string)
    decreases |a|
  {
    if |a| == 0 then |b| > 0
    else if |b| == 0 then false
    else if a[0] != b[0] then a[0] < b[0]
    else LexLess(a[1..], b[1..])
  }

  lemma {:induction false} LexLessIrreflexive(a: string)
    ensures !LexLess(a, a)
    decreases |a|
  {
    if |a| > 0 {
      LexLessIrreflexive(a[1..]);
    }
  }

  lemma {:induction false} LexLessTransitive(a: string, b: string, c: string)
    requires LexLess(a, b) && LexLess(b, c)
    ensures LexLess(a, c)
    decreases |a|
  {
    if |a| > 0 && a[0] == b[0] && b[0] == c[0] {
      LexLessTransitive(a[1..], b[1..], c[1..]);
    }
  }

  lemma {:induction false} LexLessTotal(a: string, b: string)
    ensures a == b || LexLess(a, b) || LexLess(b, a)
    decreases |a|
  {
    if |a| > 0 && |b| > 0 && a[0] == b[0] {
      LexLessTotal(a[1..], b[1..]);
      if a[1..] == b[1..] {
        assert a == [a[0]] + a[1..] && b == [b[0]] + b[1..];
      }
    }
  }

  lemma {:induction false} LexLessAsymmetric(a: string, b: string)
    requires LexLess(a, b)
    ensures !LexLess(b, a)
    decreases |a|
  {
    if |a| > 0 && a[0] == b[0] {
      LexLessAsymmetric(a[1..], b[1..]);
    }
  }

  /** "Not below" is transitive: the non-strict order a descending sort keeps. */
  lemma {:induction false} NotLessTransitive(a: string, b: string, c: string)
    requires !LexLess(a, b) && !LexLess(b, c)
    ensures !LexLess(a, c)
    decreases |a|
  {
    if |a| > 0 && |b| > 0 && |c| > 0 && a[0] == b[0] && b[0] == c[0] {
      NotLessTransitive(a[1..], b[1..], c[1..]);
    }
  }

  // ---------------------------------------------------------------- join / split

  /** `parts.join(sep)`. */
  function Join(parts: seq<string>, sep: char): string
  {
    if |parts| == 0 then ""
    else if |parts| == 1 then parts[0]
    else parts[0] + [sep] + Join(parts[1..], sep)
  }

  /** `s.split(sep)` for a one-character separator. */
  function Split(s: string, sep: char): (r: seq<string>)
    ensures |r| >= 1
    decreases |s|
  {
    if |s| == 0 then [""]
    else if s[0] == sep then [""] + Split(s[1..], sep)
    else
      var rest := Split(s[1..], sep);
      [[s[0]] + rest[0]] + rest[1..]
  }

  lemma {:induction false} SplitAfterPlainPrefix(p: string, t: string, sep: char)
    requires sep !in p
    ensures Split(p + t, sep) == [p + Split(t, sep)[0]] + Split(t, sep)[1..]
    decreases |p|
  {
    if |p| > 0 {
      assert p + t == [p[0]] + (p[1..] + t);
      SplitAfterPlainPrefix(p[1..], t, sep);
      assert [p[0]] + (p[1..] + Split(t, sep)[0]) == p + Split(t, sep)[0];
    } else {
      assert p + t == t;
      assert p + Split(t, sep)[0] == Split(t, sep)[0];
      assert Split(t, sep) == [Split(t, sep)[0]] + Split(t, sep)[1..];
    }
  }

  /** Splitting a join gives the parts back when no part holds the separator. */
  lemma {:induction false} SplitJoin(parts: seq<string>, sep: char)
    requires |parts| >= 1
    requires forall i :: 0 <= i < |parts| ==> sep !in parts[i]
    ensures Split(Join(parts, sep), sep) == parts
    decreases |parts|
  {
    if |parts| == 1 {
      SplitAfterPlainPrefix(parts[0], "", sep);
      assert parts[0] + "" == parts[0];
    } else {
      var tail := [sep] + Join(parts[1..], sep);
      assert Join(parts, sep) == parts[0] + tail;
      SplitAfterPlainPrefix(parts[0], tail, sep);
      SplitJoin(parts[1..], sep);
      assert tail[1..] == Join(parts[1..], sep);
      assert Split(tail, sep) == [""] + parts[1..];
      assert parts[0] + "" == parts[0];
    }
  }

  // ---------------------------------------------------------------- numbers

  /** A JavaScript number as far as `parseInt` can produce one. */
  datatype JsNumber = NaN | Num(value: int)

  /** The ASCII members of ECMAScript's StrWhiteSpaceChar. */
  predicate IsJsSpace(c: char)
  {
    c == ' ' || c == '\t' || c == '\n' || c == '\r' || c == '\U{000B}' || c == '\U{000C}'
  }

  function TrimStart(s: string): (r: string)
    ensures |r| <= |s| && r == s[|s| - |r|..]
    ensures |r| > 0 ==> !IsJsSpace(r[0])
    decreases |s|
  {
    if |s| > 0 && IsJsSpace(s[0]) then TrimStart(s[1..]) else s
  }

  /** The value of a digit character in base 36, or 36 when it is no digit. */
  function DigitValue(c: char): nat
  {
    if '0' <= c <= '9' then c as int - '0' as int
    else if 'a' <= c <= 'z' then c as int - 'a' as int + 10
    else if 'A' <= c <= 'Z' then c as int - 'A' as int + 10
    else 36
  }

  predicate IsDigitIn(c: char, radix: nat)
  {
    DigitValue(c) < radix
  }

  /** The longest prefix of `s` made of digits of `radix`. */
  function DigitRun(s: string, radix: nat): (r: string)
    ensures IsPrefix(r, s)
    ensures forall i :: 0 <= i < |r| ==> IsDigitIn(r[i], radix)
    ensures |r| < |s| ==> !IsDigitIn(s[|r|], radix)
    decreases |s|
  {
    if |s| > 0 && IsDigitIn(s[0], radix) then [s[0]] + DigitRun(s[1..], radix) else ""
  }

  /** The value of a digit string read most significant digit first. */
  function DigitsValue(ds: string, radix: nat): nat
    decreases |ds|
  {
    if |ds| == 0 then 0
    else DigitsValue(ds[..|ds| - 1], radix) * radix + DigitValue(ds[|ds| - 1])
  }

  /** Whether an unsigned numeral starts with the `0x` / `0X` prefix of base 16. */
  predicate HasHexPrefix(u: string)
  {
    |u| >= 2 && u[0] == '0' && (u[1] == 'x' || u[1] == 'X')
  }

  /** The magnitude of an unsigned numeral: its longest leading digit run, or NaN. */
  function ParseMagnitude(u: string): JsNumber
  {
    var radix := if HasHexPrefix(u) then 16 else 10;
    var ds := DigitRun(if HasHexPrefix(u) then u[2..] else u, radix);
    if |ds| == 0 then NaN else Num(DigitsValue(ds, radix))
  }

  /**
   * `parseInt(s)` without a radix: leading white space is skipped, one sign is
   * read, a `0x` prefix selects base 16, and the longest run of digits that
   * follows is the value; no digit at all gives NaN. Trailing text is ignored.
   */
  function ParseInt(s: string): JsNumber
  {
    var t := TrimStart(s);
    if |t| > 0 && t[0] == '-' then
      match ParseMagnitude(t[1..])
      case NaN => NaN
      case Num(m) => Num(-m)
    else if |t| > 0 && t[0] == '+' then ParseMagnitude(t[1..])
    else ParseMagnitude(t)
  }

  function DigitChar(d: nat): (c: char)
    requires d < 10
    ensures IsDigitIn(c, 10) && DigitValue(c) == d
  {
    ('0' as int + d) as char
  }

  /** The decimal numeral of a natural number, as `String(n)` writes it. */
  function Numeral(n: nat): (r: string)
    ensures |r| >= 1
    ensures forall i :: 0 <= i < |r| ==> IsDigitIn(r[i], 10)
  {
    if n < 10 then [DigitChar(n)] else Numeral(n / 10) + [DigitChar(n % 10)]
  }

  /** The decimal text of an integer, as an `<input type="number">` holds it. */
  function DecimalText(n: int): string
  {
    if n < 0 then "-" + Numeral(-n) else Numeral(n)
  }

  lemma {:induction false} NumeralValue(n: nat)
    ensures DigitsValue(Numeral(n), 10) == n
  {
    if n >= 10 {
      NumeralValue(n / 10);
      var r := Numeral(n);
      assert r[..|r| - 1] == Numeral(n / 10);
    }
  }

  lemma {:induction false} DigitRunOfDigits(s: string, radix: nat)
    requires forall i :: 0 <= i < |s| ==> IsDigitIn(s[i], radix)
    ensures DigitRun(s, radix) == s
    decreases |s|
  {
    if |s| > 0 {
      DigitRunOfDigits(s[1..], radix);
      assert s == [s[0]] + s[1..];
    }
  }

  lemma ParseMagnitudeNumeral(m: nat)
    ensures ParseMagnitude(Numeral(m)) == Num(m)
  {
    var digits := Numeral(m);
    assert !HasHexPrefix(digits) by {
      if |digits| >= 2 {
        assert IsDigitIn(digits[1], 10);
      }
    }
    DigitRunOfDigits(digits, 10);
    NumeralValue(m);
  }

  /** `parseInt` reads back every decimal text: the two are inverse. */
  lemma ParseIntDecimalText(n: int)
    ensures ParseInt(DecimalText(n)) == Num(n)
  {
    var m: nat := if n < 0 then -n else n;
    var digits := Numeral(m);
    ParseMagnitudeNumeral(m);
    assert IsDigitIn(digits[0], 10);
    if n < 0 {
      var t := "-" + digits;
      TrimStartOfNonSpace(t);
      assert t[1..] == digits;
    } else {
      TrimStartOfNonSpace(digits);
    }
  }

  /** A text that starts with no white space is left as it is by `TrimStart`. */
  lemma TrimStartOfNonSpace(s: string)
    requires |s| > 0 && !IsJsSpace(s[0])
    ensures TrimStart(s) == s
  {
  }

  /** An empty text is not a number, the case `current_year ? … : null` guards. */
  lemma ParseIntEmpty()
    ensures ParseInt("") == NaN
  {
  }
}

=== FILE: toasts.dfy ===
/** The notifications the screens raise, in the order they appear. */
module Toasts {

  datatype Toast = Success(message: string) | Failure(message: string)
}

=== FILE: user_admin.dfy ===
/**
 * The user-management panel of the dashboard: the list of profiles with the
 * roles each holds, its search and role filter, and the two dialogs that grant
 * and revoke a role. A granted role is a row of `user_roles`; the unique
 * constraint on `(user_id, role)` is what turns a second grant into the
 * "already has this role" message.
 */
module UserAdmin {
  import opened Wrappers
  import opened Text
  import opened Seqs
  import opened Schema
  import opened Store
  import opened Toasts

  /** A profile with the roles granted to it. */
  datatype UserWithRoles = UserWithRoles(
    id: UserId,
    email: Option<string>,
    fullName: Option<string>,
    createdAt: Timestamp,
    roles: seq<AppRole>)

  function UserCreatedAt(u: UserWithRoles): Timestamp
  {
    u.createdAt
  }

  /** The panel's state. An empty role select is `None`. */
  datatype Screen = Screen(
    users: seq<UserWithRoles>,
    loading: bool,
    search: string,
    roleFilter: Choice<AppRole>,
    selectedUser: Option<UserWithRoles>,
    newRole: Option<AppRole>,
    showRoleDialog: bool,
    showRemoveRoleDialog: bool,
    roleToRemove: Option<AppRole>,
    toasts: seq<Toast>)

  const Initial: Screen := Screen([], true, "", All, None, None, false, false, None, [])

  function RoleLabel(r: AppRole): string
  {
    match r
    case Admin => "Administrador"
    case Moderator => "Moderador"
    case Candidato => "Candidato"
  }

  const LoadFailed: string := "Erro ao carregar utilizadores"
  const AlreadyHasRole: string := "Este utilizador j\U{00E1} tem este papel"
  const AddFailed: string := "Erro ao atribuir papel"
  const RemoveFailed: string := "Erro ao remover papel"

  function AddedMessage(r: AppRole): string
  {
    "Papel \"" + RoleLabel(r) + "\" atribu\U{00ED}do com sucesso"
  }

  function RemovedMessage(r: AppRole): string
  {
    "Papel \"" + RoleLabel(r) + "\" removido com sucesso"
  }

  // ---------------------------------------------------------------- loading

  function UserOf(p: Profile, rows: seq<RoleRow>): UserWithRoles
  {
    UserWithRoles(p.id, p.email, p.fullName, p.createdAt, RolesIn(rows, p.id))
  }

  /**
   * The profiles, in the order given, each with the roles some row of
   * `rows` grants it.
   */
  function Combine(profiles: seq<Profile>, rows: seq<RoleRow>): (r: seq<UserWithRoles>)
    ensures |r| == |profiles|
    ensures forall i :: 0 <= i < |r| ==>
      r[i].id == profiles[i].id && r[i].email == profiles[i].email
      && r[i].fullName == profiles[i].fullName && r[i].createdAt == profiles[i].createdAt
    ensures forall i, role :: 0 <= i < |r| ==>
      (role in r[i].roles <==> exists k :: 0 <= k < |rows| && rows[k].userId == profiles[i].id && rows[k].role == role)
    ensures forall i :: 0 <= i < |r| ==> r[i].roles == RolesIn(rows, profiles[i].id)
  {
    seq(|profiles|, i requires 0 <= i < |profiles| => UserOf(profiles[i], rows))
  }

  predicate FromProfile(u: UserWithRoles, profiles: seq<Profile>)
  {
    exists p :: p in profiles && p.id == u.id && p.email == u.email && p.fullName == u.fullName && p.createdAt == u.createdAt
  }

  /** The joined list of every profile of the store, newest first. */
  function LoadedUsers(db: Db): (r: seq<UserWithRoles>)
    ensures |r| == |db.profiles|
    ensures NewestFirst(r, UserCreatedAt)
    ensures forall i :: 0 <= i < |r| ==> FromProfile(r[i], db.profiles)
    ensures forall i, role :: 0 <= i < |r| ==> (role in r[i].roles <==> HasRole(db, role, r[i].id))
    ensures exists ps: seq<Profile> :: multiset(ps) == multiset(db.profiles) && r == Combine(ps, db.userRoles)
  {
    var profiles := SelectProfiles(db);
    var users := Combine(profiles, db.userRoles);
    assert |profiles| == |db.profiles| by {
      assert |multiset(profiles)| == |multiset(db.profiles)|;
    }
    forall i | 0 <= i < |users|
      ensures FromProfile(users[i], db.profiles)
    {
      assert profiles[i] in multiset(db.profiles);
      assert profiles[i] in db.profiles;
    }
    forall i, j | 0 <= i < j < |users|
      ensures !LexLess(UserCreatedAt(users[i]), UserCreatedAt(users[j]))
    {
      assert !LexLess(ProfileCreatedAt(profiles[i]), ProfileCreatedAt(profiles[j]));
    }
    users
  }

  /**
   * `fetchUsers`: two queries, every profile newest first and every role
   * row; either failing keeps the previous list and raises one error toast.
   * The rest of the panel is untouched and `loading` ends false.
   */
  function FetchUsers(s: Screen, db: Db, profilesFail: bool, rolesFail: bool): (r: Screen)
    ensures !r.loading
    ensures profilesFail || rolesFail ==> r.users == s.users && r.toasts == s.toasts + [Failure(LoadFailed)]
    ensures !profilesFail && !rolesFail ==> r.toasts == s.toasts && r.users == LoadedUsers(db)
    ensures r.(users := s.users, loading := s.loading, toasts := s.toasts) == s
  {
    if profilesFail || rolesFail then s.(loading := false, toasts := s.toasts + [Failure(LoadFailed)])
    else s.(users := LoadedUsers(db), loading := false)
  }

  // ---------------------------------------------------------------- filter

  /**
   * The search box: the e-mail or the name must contain the query, ignoring
   * case. A missing e-mail or name never matches, not even the empty query.
   */
  predicate MatchesUserSearch(u: UserWithRoles, q: string)
  {
    || (u.email.Some? && Contains(Lower(u.email.value), Lower(q)))
    || (u.fullName.Some? && Contains(Lower(u.fullName.value), Lower(q)))
  }

  predicate MatchesRole(u: UserWithRoles, c: Choice<AppRole>)
  {
    c.All? || c.value in u.roles
  }

  predicate Shown(s: Screen, u: UserWithRoles)
  {
    MatchesUserSearch(u, s.search) && MatchesRole(u, s.roleFilter)
  }

  function ShownTest(s: Screen): UserWithRoles -> bool
  {
    (u: UserWithRoles) => Shown(s, u)
  }

  /** `filteredUsers`: the loaded users both filters let through, in list order. */
  function FilteredUsers(s: Screen): (r: seq<UserWithRoles>)
    ensures IsSubseq(r, s.users)
    ensures forall i :: 0 <= i < |r| ==> r[i] in s.users && Shown(s, r[i])
    ensures forall i :: 0 <= i < |s.users| && Shown(s, s.users[i]) ==> s.users[i] in r
  {
    Filter(s.users, ShownTest(s))
  }

  /** With an empty search, exactly the users with an e-mail or a name match. */
  lemma EmptySearchMatchesIdentifiedUsers(u: UserWithRoles)
    ensures MatchesUserSearch(u, "") <==> u.email.Some? || u.fullName.Some?
  {
    assert Lower("") == "";
    if u.email.Some? {
      ContainsEmpty(Lower(u.email.value));
    }
    if u.fullName.Some? {
      ContainsEmpty(Lower(u.fullName.value));
    }
  }

  /**
   * A profile without e-mail and without name is never listed, whatever the
   * search and the role filter.
   */
  lemma AnonymousUsersAreNeverListed(s: Screen, i: nat)
    requires i < |s.users| && s.users[i].email.None? && s.users[i].fullName.None?
    ensures s.users[i] !in FilteredUsers(s)
  {
  }

  /**
   * After a successful load, the role filter lists a user exactly when the
   * database grants them that role (and the search matches).
   */
  lemma RoleFilterFollowsDatabase(s: Screen, db: Db, role: AppRole, i: nat)
    requires i < |db.profiles|
    ensures var r := FetchUsers(s.(roleFilter := Only(role)), db, false, false);
      i < |r.users| && (Shown(r, r.users[i]) <==> MatchesUserSearch(r.users[i], r.search) && HasRole(db, role, r.users[i].id))
  {
  }

  // ---------------------------------------------------------------- dialogs

  /** Clicking "Adicionar Papel" on a row. */
  function OpenAddDialog(s: Screen, u: UserWithRoles): Screen
  {
    s.(selectedUser := Some(u), showRoleDialog := true)
  }

  /** Choosing a role in the add dialog's select. */
  function ChooseRole(s: Screen, r: AppRole): Screen
  {
    s.(newRole := Some(r))
  }

  /** Clicking a role badge on a row. */
  function OpenRemoveDialog(s: Screen, u: UserWithRoles, r: AppRole): Screen
  {
    s.(selectedUser := Some(u), roleToRemove := Some(r), showRemoveRoleDialog := true)
  }

  /** Transient failures of the three backend calls one action may make. */
  datatype Faults = Faults(writeFails: bool, profilesFail: bool, rolesFail: bool)

  const NoFaults: Faults := Faults(false, false, false)

  /**
   * `addRole`: without a selected user or a chosen role nothing happens.
   * Otherwise one insert of the pair; a duplicate is reported as such, any
   * other error generically; only a successful insert reloads the list; and
   * whatever the outcome the dialog closes and the selection is cleared.
   */
  function AddRole(s: Screen, db: Db, rowId: string, now: Timestamp, f: Faults): (r: (Screen, Db))
    ensures s.selectedUser.None? || s.newRole.None? ==> r == (s, db)
    ensures s.selectedUser.Some? && s.newRole.Some? ==> var uid, role := s.selectedUser.value.id, s.newRole.value;
      && !r.0.showRoleDialog && r.0.newRole.None? && r.0.selectedUser.None?
      && (f.writeFails || HasRole(db, role, uid) ==> r.1 == db && r.0.users == s.users)
      && (!f.writeFails ==> HasRole(r.1, role, uid))
      && (forall u, q :: (u != uid || q != role) ==> (HasRole(r.1, q, u) <==> HasRole(db, q, u)))
      && (RolePairsUnique(db.userRoles) ==> RolePairsUnique(r.1.userRoles))
      && |r.0.toasts| >= |s.toasts| + 1
      && r.0.toasts[|s.toasts|] == (
        if f.writeFails then Failure(AddFailed)
        else if HasRole(db, role, uid) then Failure(AlreadyHasRole)
        else Success(AddedMessage(role)))
      && (!f.writeFails && !HasRole(db, role, uid) && !f.profilesFail && !f.rolesFail ==> r.0.users == LoadedUsers(r.1))
      && (!f.writeFails && !HasRole(db, role, uid) && (f.profilesFail || f.rolesFail) ==>
            r.0.users == s.users && r.0.toasts == s.toasts + [Success(AddedMessage(role)), Failure(LoadFailed)])
    ensures r.0.search == s.search && r.0.roleFilter == s.roleFilter
    ensures r.1.applications == db.applications && r.1.profiles == db.profiles
  {
    if s.selectedUser.None? || s.newRole.None? then (s, db)
    else
      var uid, role := s.selectedUser.value.id, s.newRole.value;
      var result := if f.writeFails then Err(Unavailable) else InsertRole(db, uid, role, rowId, now);
      var closed := s.(showRoleDialog := false, newRole := None, selectedUser := None);
      match result
      case Ok(db') =>
        (FetchUsers(closed.(toasts := closed.toasts + [Success(AddedMessage(role))]), db', f.profilesFail, f.rolesFail), db')
      case Err(e) =>
        OnlyUniqueViolationIs23505(e);
        (closed.(toasts := closed.toasts + [Failure(if ErrorCode(e) == "23505" then AlreadyHasRole else AddFailed)]), db)
  }

  /**
   * `removeRole`: without a selected user or a role to remove nothing
   * happens. Otherwise one delete of the pair, reported as a success whether
   * or not a row matched; only a successful delete reloads the list; and the
   * dialog closes and the selection is cleared either way.
   */
  function RemoveRole(s: Screen, db: Db, f: Faults): (r: (Screen, Db))
    ensures s.selectedUser.None? || s.roleToRemove.None? ==> r == (s, db)
    ensures s.selectedUser.Some? && s.roleToRemove.Some? ==> var uid, role := s.selectedUser.value.id, s.roleToRemove.value;
      && !r.0.showRemoveRoleDialog && r.0.roleToRemove.None? && r.0.selectedUser.None?
      && (f.writeFails ==> r.1 == db && r.0.users == s.users)
      && (!f.writeFails ==> !HasRole(r.1, role, uid))
      && (forall u, q :: (u != uid || q != role) ==> (HasRole(r.1, q, u) <==> HasRole(db, q, u)))
      && (RolePairsUnique(db.userRoles) ==> RolePairsUnique(r.1.userRoles))
      && |r.0.toasts| >= |s.toasts| + 1
      && r.0.toasts[|s.toasts|] == (if f.writeFails then Failure(RemoveFailed) else Success(RemovedMessage(role)))
      && (!f.writeFails && !f.profilesFail && !f.rolesFail ==> r.0.users == LoadedUsers(r.1))
      && (!f.writeFails && (f.profilesFail || f.rolesFail) ==>
            r.0.users == s.users && r.0.toasts == s.toasts + [Success(RemovedMessage(role)), Failure(LoadFailed)])
    ensures r.0.search == s.search && r.0.roleFilter == s.roleFilter
    ensures r.1.applications == db.applications && r.1.profiles == db.profiles
  {
    if s.selectedUser.None? || s.roleToRemove.None? then (s, db)
    else
      var uid, role := s.selectedUser.value.id, s.roleToRemove.value;
      var closed := s.(showRemoveRoleDialog := false, roleToRemove := None, selectedUser := None);
      if f.writeFails then (closed.(toasts := closed.toasts + [Failure(RemoveFailed)]), db)
      else
        var db' := DeleteRole(db, uid, role);
        (FetchUsers(closed.(toasts := closed.toasts + [Success(RemovedMessage(role))]), db', f.profilesFail, f.rolesFail), db')
  }

  /**
   * Granting the same role twice: the second grant is refused as a
   * duplicate and leaves the table alone, so the user holds the role through
   * exactly one row.
   */
  lemma GrantingTwiceKeepsOneRow(s: Screen, db: Db, u: UserWithRoles, role: AppRole, rowId: string, rowId': string, now: Timestamp)
    requires RolePairsUnique(db.userRoles)
    ensures var first := AddRole(ChooseRole(OpenAddDialog(s, u), role), db, rowId, now, NoFaults);
      var second := AddRole(ChooseRole(OpenAddDialog(first.0, u), role), first.1, rowId', now, NoFaults);
      && second.1 == first.1
      && second.0.toasts[|first.0.toasts|] == Failure(AlreadyHasRole)
      && Count(second.1.userRoles, PairTest(u.id, role)) == 1
  {
    var first := AddRole(ChooseRole(OpenAddDialog(s, u), role), db, rowId, now, NoFaults);
    UniquePairCount(first.1.userRoles, u.id, role);
    assert HasRole(Db([], [], first.1.userRoles), role, u.id) == HasRole(first.1, role, u.id);
  }

  /** Revoking a role the user does not hold still reports success and changes no grant. */
  lemma RevokingAbsentRoleChangesNothing(s: Screen, db: Db, u: UserWithRoles, role: AppRole)
    requires !HasRole(db, role, u.id)
    ensures var r := RemoveRole(OpenRemoveDialog(s, u, role), db, NoFaults);
      && (forall v, q :: HasRole(r.1, q, v) <==> HasRole(db, q, v))
      && r.0.toasts[|s.toasts|] == Success(RemovedMessage(role))
  {
  }
}

=== FILE: wrappers.dfy ===
/** Failure-compatible wrappers shared by every module of the model. */
module Wrappers {

  /** A value that may be absent: a nullable column, an optional prop, an empty select. */
  datatype Option<+T> = None | Some(value: T)

  /** The outcome of a backend call: the new value, or the error the service reported. */
  datatype Result<+T, +E> = Ok(value: T) | Err(error: E)

  /** A filter select whose first option is "all". */
  datatype Choice<+T> = All | Only(value: T)

  predicate Admits<T(==)>(c: Choice<T>, x: T)
  {
    c.All? || c.value == x
  }
}
